=== FILE: README.md ===
# Text Extractor App — a Dafny model of its decision logic

Text Extractor App is a Windows tray program. A global hotkey opens a full-screen overlay; the user drags a rectangle; the rectangle is grabbed, saved as a `.jpg`, passed to the Tesseract OCR engine, and the recognised text lands on the clipboard. A tray menu controls the settings:

- the hotkey;
- notifications on or off;
- autostart;
- whether captures are kept, and in which folder;
- the OCR languages;
- the logo and colour themes.

This project models the stateful logic beneath that UI as pure functions over immutable data:

- **Settings store** (`Config`, config.py). It covers:
  - seven typed fields read from a key/value map, with defaults for missing keys;
  - the partial update `set_values` and `clear`;
  - autostart registration as a key in a second map.
- **Helpers** (`Utils`, utils.py):
  - the logo decision table;
  - the default save folder;
  - hotkey recording from a key-event sequence.
- **Extractor worker** (`Extractor`, textExtractor.py):
  - the start/stop/restart/update-hotkey state machine over an optional process handle, with a table of live hotkey listeners, each holding the settings it read when it started;
  - the post-capture clean-up;
  - the OCR error branch and notification gating.
- **Capture** (`Capture`, screenshot.py):
  - the save directory and timestamped file name;
  - the press/move/release drag state;
  - the grab, with its empty-image fallback to a white 400x300 placeholder;
  - `make_screenshot`'s wiring.
- **Tray** (`Tray`, tray.py): the menu, rendered as a function of the settings, and every menu handler as a transition. The invariant `Good` says two things:
  - the menu on screen equals a fresh render of the current settings;
  - exactly one worker listener, on the stored hotkey and with the stored languages, is live.

Supporting modules:

- `Wrappers`: `Option` and `Result`.
- `Strings`: ASCII lower-casing, substring search, join and split.
- `Files`: Windows path join/dirname/basename, and a flat directory-to-files tree with mkdir, write, read, remove and rmdir.

The environment is passed in as parameters:

- the OS dark-mode flag;
- the clock (a `DateTime`);
- the program directory;
- the executable path;
- the language catalogue and the installed OCR languages;
- keyboard and mouse events;
- the OCR engine (a function argument).

Three behaviours of the code that are easy to misread are modelled as written:

- **Notifications:** a notification is shown whenever notifications are enabled, even when the OCR engine is missing (textExtractor.py:42-53). Only another OCR error, which escapes the handler, suppresses it.
- **Settings snapshot:** each listener process builds its own `Settings` when it starts (textExtractor.py:17-19), so it keeps the languages and flags it read then. `select_languages` writes before it restarts, so the new listener sees the new list. `toggle_notifications` and `toggle_save_photos` restart *before* they write (tray.py:277-281, 305-309). The new listener's read then races with the parent's write; the `readsFirst` parameter of the two handlers chooses the order. A capture, by contrast, reads the store afresh (screenshot.py:154), while the clean-up after it consults the listener's snapshot (textExtractor.py:32). So the two can disagree on whether photos are kept; see "## Findings".
- **Worker start:** `start_event_loop` leaves the previous process running, so two starts without a stop leave two listeners (textExtractor.py:63-69).

## Model

| member | source | states |
|---|---|---|
| Config.ThemeMatchesIffParses | apps/config.py:8-16 | a `Theme` compares equal to a string exactly when constructing a `Theme` from that string yields that member |
| Config.LogoThemeMatchesIffParses | apps/config.py:19-28 | the same equivalence for the three `LogoTheme` members |
| Config.LoadReads | apps/config.py:94-105 | each of the seven fields reads its key's stored value when the key is present with a value of the right kind, and the field's default otherwise |
| Config.LoadIgnoresOtherKeys | apps/config.py:94-105 | keys other than the seven setting keys do not affect what is read |
| Config.FieldValuesDetermine | apps/config.py:94-105 | two field sets that agree on all seven keys are equal |
| Config.Open | apps/config.py:35-52 | constructing `Settings` keeps the backing store as it is, and each field is the key's stored value when present and well-typed, its default otherwise |
| Config.FreshStoreDefaults | apps/config.py:94-105 | an empty store reads as theme "dark"/"light" following dark mode, logo "default", notifications and saving off, no folder, languages [English, OrientationModule], hotkey "shift+alt+a" |
| Config.SetValues | apps/config.py:54-92 | every supplied field takes the new value and every omitted one keeps its old value; all seven keys are then present; other keys are untouched; fields stay in sync with the store |
| Config.WriteReadsBack | apps/config.py:68-105 | writing an update and reading the store back gives each supplied field its new value and each omitted one its current value |
| Config.Write | apps/config.py:68-92 | a write stores all seven keys, each holding the updated field's value, and leaves every other key of the store as it was |
| Config.SetNothingKeepsFields | apps/config.py:68-105 | `set_values()` with no arguments leaves all seven fields unchanged yet writes all seven keys |
| Config.SaveFolderNeverReset | apps/config.py:84-86 | once a save folder is stored, no `set_values` call can bring it back to None |
| Config.Clear | apps/config.py:124-126 | after `clear` the store is empty and the fields equal the defaults |
| Config.AutoStart | apps/config.py:107-112 | registering or unregistering changes only the app's own key in the registry |
| Config.AutoStartObserved | apps/config.py:107-116 | after `auto_start(enable)`, `is_auto_started()` answers `enable` |
| Config.AutoStartIdempotent | apps/config.py:107-112 | repeating `auto_start` with the same argument changes nothing more |
| Utils.DefaultSaveFolderInMainDir | apps/utils.py:15-17 | the default save folder lies directly in the program directory under the name "testpic" |
| Utils.GetLogo | apps/utils.py:20-34 | the light logo when the logo theme is "light" or it is "default" and the theme is "light", the dark logo otherwise, and the two paths differ |
| Utils.NormaliseKey | apps/utils.py:45-55 | a recorded key name is one of windows/ctrl/alt/shift/capslock or the lower-cased name itself; it stays lower-cased only when it holds none of the five fragments, and it is "windows" whenever it holds "windows" |
| Utils.NormaliseKeyFirstMatch | apps/utils.py:45-55 | the first fragment the lower-cased name holds, tried in the order windows, ctrl, alt, shift, caps lock, decides the result ("caps lock" gives "capslock"); a name holding none of them is kept lower-cased |
| Utils.NormaliseKeyIdempotent | apps/utils.py:45-55 | normalising a normalised key name changes nothing |
| Utils.CanonicalFixed | apps/utils.py:46-55 | each canonical modifier name normalises to itself, so the first-match order never redirects it |
| Utils.Pressed | apps/utils.py:39-55 | the recorded names are, in order, the normalised names of the key-down events before the first key-up |
| Utils.PressedStopsAtKeyUp | apps/utils.py:39-44 | the keys recorded are those pressed before the first key release; later events are not read |
| Utils.HotkeyIgnoresLaterEvents | apps/utils.py:39-44 | the recorded key set is the same whatever follows the first key release |
| Utils.GetHotkey | apps/utils.py:37-59 | the result is "+"-joined tokens with no duplicates, holding exactly the normalised names of keys pressed before the first release, in an unspecified order; empty when the first event is a release |
| Utils.RecordKeys | apps/utils.py:39-56 | the reading loop collects exactly the recorded names |
| Utils.Deduplicate | apps/utils.py:59 | the set round trip keeps each recorded name exactly once and adds none |
| Utils.FirstKeyUpGivesEmpty | apps/utils.py:38-43 | a sequence starting with a key release records no key |
| Files.SplitJoinPath | apps/textExtractor.py:33-34 | the directory of a capture path joined from a directory and a file name is that directory, and its base name is the file name |
| Files.WriteThenRead | apps/screenshot.py:146-147 | a saved image is read back unchanged from its path |
| Files.PutFileFrame | apps/screenshot.py:96-97 | saving one file adds no directory, makes that file read back as the saved image, and leaves every file under another directory or name as it was |
| Files.PutFileOverwrite | apps/screenshot.py:96-97 | saving twice at one path keeps the second image only, and saving back the image a file already holds changes nothing |
| Extractor.LanguageSelectorRoundTrip | apps/textExtractor.py:19 | the "+"-joined language selector splits back into the stored language list |
| Extractor.Start | apps/textExtractor.py:63-69 | starting launches a new process, listening on the current hotkey with the settings it read, and keeps the old ones running |
| Extractor.StartTwiceLeavesTwoListeners | apps/textExtractor.py:63-69 | two starts leave two live listeners, only one of which is referenced |
| Extractor.Stop | apps/textExtractor.py:71-74 | with no handle nothing changes; otherwise the referenced process is terminated and the handle cleared |
| Extractor.Restart | apps/textExtractor.py:76-78 | restarting terminates the referenced process and starts a new one, not live before, on the current hotkey with the settings it read; every other live listener is kept as it was |
| Extractor.RestartLeavesSingleListener | apps/textExtractor.py:76-78 | when no orphan process is running, a restart leaves exactly one live listener |
| Extractor.UpdateHotkey | apps/textExtractor.py:80-83 | the hotkey is always replaced; with `auto_restart` the referenced process is terminated and a new one, not live before, listens on the new hotkey while every other listener is kept; without it the worker's processes are left as they were |
| Extractor.UpdateWithoutRestartIsStale | apps/textExtractor.py:80-83 | without a restart the live listener still waits for the old hotkey |
| Extractor.Cleanup | apps/textExtractor.py:32-40 | when captures are not kept, the file and its directory are removed, emptying the directory first if need be; when they are kept, the tree is unchanged |
| Extractor.ChildStopKeepsListening | apps/textExtractor.py:63-74 | `stop_event_loop` called on a listener's own copy of the worker, made before the handle is recorded, terminates nothing |
| Extractor.ScreenshotToClipAsWritten | apps/textExtractor.py:25-53 | OCR sees the image read before the clean-up, with the languages the listener read; its text goes to the clipboard; on a missing engine the error is shown, the clipboard kept and every listener stays live; another OCR error escapes; a notification is shown exactly when enabled and the OCR did not raise |
| Extractor.ScreenshotToClip | apps/textExtractor.py:25-53 | as the as-written handler, except that on a missing engine the listener that ran the activation ends and every other listener is kept |
| Extractor.KeptCaptureSurvives | apps/textExtractor.py:27-40 | with saving on and a folder chosen in the store the capture reads, and the listener's snapshot also saying saving is on, the capture is saved in that folder under its timestamp name and survives the clean-up |
| Extractor.DiscardedCaptureRemoved | apps/textExtractor.py:27-40 | with saving off in the store the capture reads and in the listener's snapshot, the capture goes to the default folder, and neither file nor folder remains after the clean-up |
| Extractor.StaleSnapshotRemovesChosenFolder | apps/textExtractor.py:17-40 | when the store keeps photos in a chosen folder but the listener's snapshot says they are discarded, the capture lands in the chosen folder and the clean-up removes that folder |
| Extractor.StaleSnapshotKeepsDiscarded | apps/textExtractor.py:17-40 | when the store discards photos but the listener's snapshot keeps them, the capture stays behind in the default folder |
| Capture.DigitsRoundTrip | apps/screenshot.py:54 | a zero-padded decimal field reads back as the number written |
| Capture.TimestampName | apps/screenshot.py:53-54 | the generated name has 19 characters and no path separator |
| Capture.TimestampNameRoundTrip | apps/screenshot.py:53-54 | the "%Y%m%d_%H%M%S.jpg" name determines the moment it was made from |
| Capture.ScreenshotPath | apps/screenshot.py:51-71 | the path is in the default folder when no folder is set or saving is off, else in the chosen folder; that directory exists afterwards and is the only one added |
| Capture.ScreenshotPathParts | apps/screenshot.py:51-71 | the chosen path splits back into the chosen directory and the file name |
| Capture.Press | apps/screenshot.py:73-76 | a press puts both drag points at the cursor |
| Capture.Move | apps/screenshot.py:78-80 | a move changes only the end point |
| Capture.Normalized | apps/screenshot.py:87 | the grab box has each corner coordinate taken from one of the two points, left not right of right and top not below bottom |
| Capture.NormalizedSymmetric | apps/screenshot.py:87 | dragging either way over the same points grabs the same box |
| Capture.Grab | apps/screenshot.py:90 | the grabbed image is as wide and as high as the rectangle, and holds no pixel exactly when the rectangle is flat |
| Capture.ClickGrabsNothing | apps/screenshot.py:87-90 | a release where the press happened grabs an empty image |
| Capture.NewScreenShot | apps/screenshot.py:126-148 | a given image is kept and nothing is read; otherwise the file is opened, leaving the tree as it was, or, when it is missing, a white 400x300 placeholder is made and saved there as the only change to the tree; a missing directory fails |
| Capture.Release | apps/screenshot.py:85-103 | the overlay closes with points reset and the capture file exists; a grab of the normalised drag box that has pixels becomes the last capture, an empty one falls back to the `ScreenShot(path)` object (the file already at the path, or the placeholder); either way the file at the path then holds the last capture's image, never blank when the path was fresh, and every other file and directory is as it was |
| Capture.Run | apps/screenshot.py:73-103 | a mouse-event sequence keeps the path and the save directory, fails only when that directory is missing, and, if it closes the overlay, leaves a last image whose pixels are saved at the path as the only change to the tree; if it does not, the tree is unchanged |
| Capture.RunStep | apps/screenshot.py:73-103 | on an open overlay a press or a move updates the drag and the rest of the events follow, and a release ends the run with `mouseReleaseEvent`'s outcome |
| Capture.DragGrabs | apps/screenshot.py:73-97 | pressing at one point, dragging to another and releasing there, over a box with pixels, closes the overlay with the grab of that box as the last capture and as the file saved at the overlay's path |
| Capture.OpenWidgetAddsNoFile | apps/screenshot.py:51-71 | opening the overlay creates at most its directory, never a file |
| Capture.MakeScreenshotAsWritten | apps/screenshot.py:150-162 | there is a result exactly when the overlay closed; it carries the overlay's path, whatever the overlay kept as its last capture, and the file tree the overlay left; an overlay never released gives no result |
| Capture.ClickNestsScreenShot | apps/screenshot.py:92-97 | a click without dragging, when no file is at the capture path yet, makes the result's image a `ScreenShot` object wrapping the placeholder |
| Capture.MakeScreenshot | apps/screenshot.py:150-162 | the corrected result exists exactly when the overlay closed, and carries the overlay's path and the image of its last capture, unwrapped; that image is non-blank when the path was fresh, and the tree is the opened overlay's with that image saved at the path |
| Capture.MakeScreenshotAgrees | apps/screenshot.py:150-162 | the corrected and the as-written results fail alike, and on success name the same path and leave the same file tree, differing only in the unwrapped image |
| Tray.WithoutMembers | apps/tray.py:295 | removing actions keeps exactly the actions not removed |
| Tray.AddAction | apps/tray.py:152-175 | adding an action puts it last, once, and keeps exactly the other actions the menu had |
| Tray.AddActionsMoves | apps/tray.py:152-175 | adding a list of distinct actions leaves the other actions in order, followed by the list in list order |
| Tray.ThemeItems | apps/tray.py:177-184 | one entry per theme in declaration order, hidden exactly when its value equals the current theme |
| Tray.ThemeMenuHidesOne | apps/tray.py:177-184 | with a valid theme stored, exactly one theme entry is hidden |
| Tray.CapitalizeLowers | apps/tray.py:122 | capitalising a lower-case name and lower-casing it again gives the name back |
| Tray.ThemeLabelsParse | apps/tray.py:324-326 | every theme entry's text, lower-cased, converts back to that entry's theme |
| Tray.LogoItems | apps/tray.py:120-126 | one entry per logo theme in declaration order, hidden exactly when its value equals the current logo theme |
| Tray.LogoMenuHidesOne | apps/tray.py:120-126 | with a valid logo theme stored, exactly one logo entry is hidden |
| Tray.LogoLabelsParse | apps/tray.py:311-313 | every logo entry's text, lower-cased, converts back to that entry's logo theme |
| Tray.GetColors | apps/tray.py:186-200 | the exact palette: f2f2f2, 000000, 90c8f6 (and 6389a9) for the light theme; 292a2d, e8eaed, 3f4042 (and 333335) otherwise |
| Tray.ColorsAgree | apps/tray.py:186-200 | the three-colour answer is the four-colour one minus the last colour; the light palette is used exactly for the light theme |
| Tray.SelectedLanguageStandsOut | apps/tray.py:202-235 | a selected language label's background always differs from an unselected one's |
| Tray.LangMenuLists | apps/tray.py:132-150 | a catalogue language is listed exactly when the OCR engine has its code, and is styled selected exactly when its code is among the stored languages |
| Tray.FirstIndex | apps/tray.py:259 | the position found holds the code and no earlier position does |
| Tray.RemoveFirst | apps/tray.py:259 | `list.remove` drops the first occurrence of the code, keeping everything before and after it, and changes nothing when the code is absent |
| Tray.ToggleCode | apps/tray.py:258-267 | a present code loses its first occurrence; an absent one is appended at the end |
| Tray.ToggleKeepsOtherOrder | apps/tray.py:254-267 | toggling a code leaves the other codes in their relative order |
| Tray.AppendThenRemove | apps/tray.py:258-267 | removing a code just appended to a list without it gives the list back |
| Tray.ToggleTwiceRestores | apps/tray.py:254-267 | selecting an unselected language twice gives the original list back |
| Tray.RenderShows | apps/tray.py:25-118 | a freshly drawn tray opens its menu with the title and separator, holds each action once, shows the save-folder entry exactly when saving is on, shows the hotkey after "HotKey ", and each toggle label offers the opposite of the current state |
| Tray.RestartListens | apps/textExtractor.py:76-78 | restarting a worker with no orphan process leaves one live listener, new, on the same hotkey, with the settings it read |
| Tray.Init | apps/tray.py:12-118 | the tray starts consistent with the stored settings: title, separator, then the items in order, with the save-folder entry exactly when saving is on; one listener for the stored hotkey, holding the settings it read; the autostart registry is read, not changed |
| Tray.InitMenu | apps/tray.py:74-175 | the three submenus added on creation end up behind the plain items once `addActions` has run |
| Tray.ChangeHotkey | apps/tray.py:239-248 | only the hotkey changes (the autostart registry is untouched), the label shows it, and the one live listener is new, waits for it and holds the new settings |
| Tray.RecordHotkey | apps/tray.py:239-248 | the stored hotkey names the keys held before the first release, each once; the tray stays consistent and the autostart registry is untouched |
| Tray.SelectFolder | apps/tray.py:250-252 | an empty selection keeps the folder, any other replaces it; the menu, the worker and the autostart registry do not change |
| Tray.SelectLanguage | apps/tray.py:254-269 | only the language list changes, by the toggle rule, and the autostart registry is untouched; the menu is rebuilt, and the worker is restarted into a new listener on the same hotkey holding the new list |
| Tray.ToggleNotifications | apps/tray.py:271-281 | only the notification flag flips, the autostart registry is untouched, and the label reads "Disable notifications" exactly when it is now on; the new listener holds the old settings when its read wins the race, the new ones otherwise |
| Tray.ToggleAutostart | apps/tray.py:283-290 | the registration flips, while the settings store and the worker are untouched |
| Tray.SaveToggleMenu | apps/tray.py:292-303 | removing the save-folder entry, or re-adding the item list, gives exactly the menu for the new flag |
| Tray.SaveToggleView | apps/tray.py:292-309 | the piecemeal update of label and menu equals the render of the flipped flag |
| Tray.ToggleSavePhotos | apps/tray.py:292-309 | the tray stays consistent, only the save flag flips and the autostart registry is untouched; the new listener is a fresh process holding the old or the new settings as for notifications |
| Tray.StaleSaveToggleRemovesChosenFolder | apps/tray.py:292-309 | turning saving on with a folder chosen, when the new listener reads the store first, makes the next capture land in the chosen folder and the listener's clean-up remove that folder |
| Tray.SaveToggleRestart | apps/tray.py:292-309 | once the new listener has read some settings with the stored languages, the save toggle keeps the tray consistent, flips only the save flag, leaves the registry, and the new listener holds exactly what it read |
| Tray.ToggleSavePhotosWriteFirst | apps/tray.py:254-309 | with the write moved before the restart, as `select_languages` does, the tray stays consistent, only the save flag flips, the autostart registry is untouched, and the new listener holds exactly the stored settings |
| Tray.WriteFirstCaptureConsistent | apps/tray.py:305-309 | after the write-first toggle, a capture kept in a chosen folder survives the clean-up and a discarded one is removed with the default folder |
| Tray.SavePhotosShown | apps/tray.py:292-303 | after the toggle the save-folder entry is present, and the label reads "don`t save screenshots", exactly when saving is now on |
| Tray.ToggleLogoTheme | apps/tray.py:311-322 | a clicked text that names a logo theme stores it and only it, rebuilding submenu and icon, with the worker and the autostart registry untouched; any other text is an error |
| Tray.ToggleTheme | apps/tray.py:324-337 | a clicked text that names a theme stores it and only it, rebuilding submenu, colours, icon and language menu, with the worker and the autostart registry untouched; any other text is an error |
| Tray.Quit | apps/tray.py:339-343 | quitting stops the worker, leaving no listener, and keeps the settings and the autostart registry |

The four capture-and-clean-up lemmas of `Extractor` are stated over the corrected `Capture.MakeScreenshot`. `Capture.MakeScreenshotAgrees` shows that the as-written capture names the same path and leaves the same file tree, which is all the clean-up looks at.

## Left out

- **Qt widgets, painting, signals, cursors and stylesheet text:** only the data the UI shows is kept: menu order, labels, visibility, colours and icon path. The stylesheet templates themselves are left out.
- **`QSettings`, the Windows Run registry and value conversion:** both stores are maps of tagged values, and a stored value of the wrong kind reads as the default. The Qt quirk that returns a one-element list as a bare string is not modelled.
- **`multiprocessing.Process`, `keyboard` hooks and the blocking `wait`:** the worker is a process table from id to the hotkey it listens for and the settings it read, plus an optional handle. Spawning and pickling are reduced to two facts: the child reads the settings store when it starts, and its copy of the worker holds no handle. Timing is reduced to the `readsFirst` choice.
- **pytesseract, cv2, PIL `ImageGrab` and the image encoder, pyperclip:**
  - OCR is a function parameter that answers with text, engine-not-found, or another error.
  - An image is a white canvas or a grabbed box, described by its size.
  - Saving is assumed to raise `ValueError` exactly for an image of zero width or height, leaving the file tree unchanged, including a file already at the path. The image library may instead truncate such an existing file, which `ScreenShot(path)` would then fail to open; the model reads the old image back.
- **Qt's `QRect.normalized`:** modelled as per-axis minimum and maximum. Qt's own version adjusts swapped edges by one pixel, and that adjustment is not modelled.
- **apps/notification.py and main.py:** toast and error dialogs are booleans in the result; start-up and error exit are not part of this model.
- **apps/languages.py:** not part of this model. `English` and `OrientationModule` are abstract string constants, and the catalogue is a parameter.
- **Paths:**
  - Only the separator `\` is recognised.
  - There are no drive letters and no `/`.
  - Directories are flat, and `mkdir` does not need the parent to exist.
  - The clean-up assumes the capture directory holds plain files only.
- **Lower-casing and `str.capitalize`:** ASCII only.
- **`get_main_dir`:** the program directory is a parameter.
- **Utils.GetHotkey:** the token order is left unspecified, as the source's order comes from iterating a Python `set`. Only the token set and the absence of duplicates are promised.

## Findings

| source | as written | input that shows it | evidently intended | confidence | as-written member | corrected member |
|---|---|---|---|---|---|---|
| apps/textExtractor.py:47-49 | on a missing engine, the handler calls `stop_event_loop` in the listener process. Its copy of the worker was taken by `process.start()` before line 68 recorded the handle, so the handle there is None and nothing stops. | any hotkey activation while Tesseract is not installed | the listener stops, so the error is not repeated on every later activation | medium, not executed | Extractor.ScreenshotToClipAsWritten (exhibited by Extractor.ChildStopKeepsListening) | Extractor.ScreenshotToClip |
| apps/screenshot.py:92-97 | on an empty grab the fallback stores a `ScreenShot` object as `last_screenshot`. `make_screenshot` passes it as the image to `ScreenShot(...)`, which keeps any truthy object. | press and release at the same point, with no file yet at the capture path (the usual case, since the name carries the time) | the result's `image` is the placeholder image itself | medium, not executed | Capture.MakeScreenshotAsWritten (exhibited by Capture.ClickNestsScreenShot) | Capture.MakeScreenshot |
| apps/tray.py:305-309 | `toggle_save_photos` restarts the worker before it writes the flipped flag, so the new listener can read the old flag while later captures, which read the store afresh, follow the new one. When saving was just turned on, the clean-up then deletes the user's chosen folder with every file in it. | saving off, a save folder chosen, toggle saving on, the new listener reads the store before the write, then one hotkey capture | write the flag, then restart, as `select_languages` does, so the listener and the capture agree | low (depends on timing), not executed | Tray.ToggleSavePhotos (exhibited by Tray.StaleSaveToggleRemovesChosenFolder) | Tray.ToggleSavePhotosWriteFirst (with Tray.WriteFirstCaptureConsistent) |

In the screenshot row's as-written case, the result's `image` is a `ScreenShot` object, not an image. Calling `show()` on the result then calls `ScreenShot.show` with an argument that method does not take. The OCR path is not affected, because it re-reads the file from `path`.

=== FILE: capture.dfy ===
/** The capture overlay: where a capture is saved, how the dragged rectangle is tracked, the
    grab on release with its blank-placeholder fallback, and the whole `make_screenshot` call
    driven by a sequence of mouse events. */
module Capture {
  import opened Wrappers
  import opened Strings
  import opened Files
  import opened Config
  import opened Utils

  // ----- Timestamped file names ("%Y%m%d_%H%M%S.jpg") -----

  /** The wall-clock time the file name is derived from. */
  datatype DateTime = DateTime(year: nat, month: nat, day: nat, hour: nat, minute: nat, second: nat)

  /** A time `datetime.now()` can return, with a four-digit year. */
  predicate ValidDateTime(t: DateTime) {
    1000 <= t.year <= 9999 && 1 <= t.month <= 12 && 1 <= t.day <= 31
    && t.hour <= 23 && t.minute <= 59 && t.second <= 59
  }

  function Pow10(n: nat): nat {
    if n == 0 then 1 else 10 * Pow10(n - 1)
  }

  predicate IsDigit(c: char) {
    '0' <= c <= '9'
  }

  predicate AllDigits(s: string) {
    forall i :: 0 <= i < |s| ==> IsDigit(s[i])
  }

  /** `n` written with exactly `width` decimal digits, zero-padded on the left. */
  function Digits(n: nat, width: nat): (r: string)
    ensures |r| == width
    ensures AllDigits(r)
  {
    if width == 0 then "" else Digits(n / 10, width - 1) + [('0' as int + n % 10) as char]
  }

  /** The number a string of decimal digits denotes. */
  function DigitsValue(s: string): nat
    requires AllDigits(s)
  {
    if |s| == 0 then 0 else DigitsValue(s[..|s| - 1]) * 10 + (s[|s| - 1] as int - '0' as int)
  }

  /** Zero-padded digits read back as the number they were made from. */
  lemma {:induction false} DigitsRoundTrip(n: nat, width: nat)
    requires n < Pow10(width)
    ensures DigitsValue(Digits(n, width)) == n
  {
    if width > 0 {
      var s := Digits(n, width);
      assert s[..|s| - 1] == Digits(n / 10, width - 1);
      DigitsRoundTrip(n / 10, width - 1);
    }
  }

  /** The "%Y%m%d" part of a time. */
  function DatePart(t: DateTime): (r: string)
    ensures |r| == 8 && AllDigits(r)
  {
    Digits(t.year, 4) + Digits(t.month, 2) + Digits(t.day, 2)
  }

  /** The "%H%M%S" part of a time. */
  function TimePart(t: DateTime): (r: string)
    ensures |r| == 6 && AllDigits(r)
  {
    Digits(t.hour, 2) + Digits(t.minute, 2) + Digits(t.second, 2)
  }

  /** `datetime.now().strftime("%Y%m%d_%H%M%S") + ".jpg"`. */
  function TimestampName(t: DateTime): (r: string)
    requires ValidDateTime(t)
    ensures |r| == 19
    ensures Free(r, Sep)
  {
    var r := DatePart(t) + "_" + TimePart(t) + ".jpg";
    assert forall i :: 0 <= i < |r| ==> r[i] == '_' || r[i] == '.' || IsDigit(r[i]) || r[i] in "jpg";
    r
  }

  /** Reads an eight-digit date back. */
  function ParseDate(s: string): (r: (nat, nat, nat))
    requires |s| == 8 && AllDigits(s)
  {
    assert AllDigits(s[0..4]) && AllDigits(s[4..6]) && AllDigits(s[6..8]);
    (DigitsValue(s[0..4]), DigitsValue(s[4..6]), DigitsValue(s[6..8]))
  }

  /** Reads a six-digit time of day back. */
  function ParseTime(s: string): (r: (nat, nat, nat))
    requires |s| == 6 && AllDigits(s)
  {
    assert AllDigits(s[0..2]) && AllDigits(s[2..4]) && AllDigits(s[4..6]);
    (DigitsValue(s[0..2]), DigitsValue(s[2..4]), DigitsValue(s[4..6]))
  }

  /** Reads a timestamped capture name back into its time; `None` for any other name. */
  function ParseTimestampName(s: string): Option<DateTime> {
    if |s| == 19 && s[8] == '_' && s[15..] == ".jpg" && AllDigits(s[..8]) && AllDigits(s[9..15]) then
      var (y, mo, d) := ParseDate(s[..8]);
      var (h, mi, se) := ParseTime(s[9..15]);
      Some(DateTime(y, mo, d, h, mi, se))
    else None
  }

  lemma DatePartRoundTrip(t: DateTime)
    requires ValidDateTime(t)
    ensures ParseDate(DatePart(t)) == (t.year, t.month, t.day)
  {
    var s := DatePart(t);
    assert s[0..4] == Digits(t.year, 4);
    assert s[4..6] == Digits(t.month, 2);
    assert s[6..8] == Digits(t.day, 2);
    DigitsRoundTrip(t.year, 4);
    DigitsRoundTrip(t.month, 2);
    DigitsRoundTrip(t.day, 2);
  }

  lemma TimePartRoundTrip(t: DateTime)
    requires ValidDateTime(t)
    ensures ParseTime(TimePart(t)) == (t.hour, t.minute, t.second)
  {
    var s := TimePart(t);
    assert s[0..2] == Digits(t.hour, 2);
    assert s[2..4] == Digits(t.minute, 2);
    assert s[4..6] == Digits(t.second, 2);
    DigitsRoundTrip(t.hour, 2);
    DigitsRoundTrip(t.minute, 2);
    DigitsRoundTrip(t.second, 2);
  }

  /** A generated capture name determines the time it was made at: distinct seconds give
      distinct names. */
  lemma TimestampNameRoundTrip(t: DateTime)
    requires ValidDateTime(t)
    ensures ParseTimestampName(TimestampName(t)) == Some(t)
  {
    var s := TimestampName(t);
    assert s[..8] == DatePart(t);
    assert s[9..15] == TimePart(t);
    assert s[15..] == ".jpg";
    DatePartRoundTrip(t);
    TimePartRoundTrip(t);
  }

  // ----- Save path selection -----

  /** The file name of a capture: the caller's, verbatim, or the timestamped one. */
  function CaptureName(fileName: Option<string>, now: DateTime): string
    requires ValidDateTime(now)
  {
    if fileName.Some? then fileName.value else TimestampName(now)
  }

  /** The directory a capture goes to: the user's folder only when one is given and photos are
      kept, the program's default folder otherwise. */
  function CaptureDir(savePhotos: bool, screenshotPath: Option<string>, mainDir: string): string {
    if screenshotPath.None? || !savePhotos then DefaultSaveFolder(mainDir) else screenshotPath.value
  }

  /** A chosen path with the file tree after any directory it needed was created. */
  datatype PathChoice = PathChoice(path: string, fs: FileTree)

  /** `SnippingWidget.__get_screenshot_path`: pick the directory, create it when missing, and
      append the file name. Only that directory may be added to the tree. */
  function ScreenshotPath(savePhotos: bool, screenshotPath: Option<string>, fileName: Option<string>,
                          now: DateTime, mainDir: string, fs: FileTree): (c: PathChoice)
    requires ValidDateTime(now)
    ensures screenshotPath.None? || !savePhotos ==> c.path == Join(DefaultSaveFolder(mainDir), CaptureName(fileName, now))
    ensures screenshotPath.Some? && savePhotos ==> c.path == Join(screenshotPath.value, CaptureName(fileName, now))
    ensures DirExists(c.fs, CaptureDir(savePhotos, screenshotPath, mainDir))
    ensures c.fs.Keys == fs.Keys + {CaptureDir(savePhotos, screenshotPath, mainDir)}
    ensures forall d :: d in fs ==> c.fs[d] == fs[d]
  {
    var name := CaptureName(fileName, now);
    if screenshotPath.None? || !savePhotos then
      var defaultDir := DefaultSaveFolder(mainDir);
      var fs' := if !DirExists(fs, defaultDir) then Mkdir(fs, defaultDir) else fs;
      PathChoice(Join(defaultDir, name), fs')
    else
      var fs' := if !DirExists(fs, screenshotPath.value) then Mkdir(fs, screenshotPath.value) else fs;
      PathChoice(Join(screenshotPath.value, name), fs')
  }

  /** The chosen path splits back into the chosen directory and the file name, and a
      generated name carries the capture time. */
  lemma ScreenshotPathParts(savePhotos: bool, screenshotPath: Option<string>, fileName: Option<string>,
                            now: DateTime, mainDir: string, fs: FileTree)
    requires ValidDateTime(now)
    requires PlainDir(CaptureDir(savePhotos, screenshotPath, mainDir))
    requires fileName.Some? ==> Free(fileName.value, Sep)
    ensures var c := ScreenshotPath(savePhotos, screenshotPath, fileName, now, mainDir, fs);
      && Dirname(c.path) == CaptureDir(savePhotos, screenshotPath, mainDir)
      && Basename(c.path) == CaptureName(fileName, now)
      && (fileName.None? ==> ParseTimestampName(Basename(c.path)) == Some(now))
  {
    SplitJoinPath(CaptureDir(savePhotos, screenshotPath, mainDir), CaptureName(fileName, now));
    if fileName.None? {
      TimestampNameRoundTrip(now);
    }
  }

  /** The default folder never ends in a separator. */
  lemma DefaultFolderPlain(mainDir: string)
    ensures PlainDir(DefaultSaveFolder(mainDir))
  {
  }

  // ----- Drag state -----

  datatype Point = Point(x: int, y: int)

  /** `QPoint()`. */
  const Origin: Point := Point(0, 0)

  /** The two corners of the selection being dragged. */
  datatype Drag = Drag(start: Point, end: Point)

  const Idle: Drag := Drag(Origin, Origin)

  /** `mousePressEvent`: both corners move to the pressed position. */
  function Press(d: Drag, pos: Point): (r: Drag)
    ensures r.start == pos && r.end == pos
  {
    d.(start := pos, end := pos)
  }

  /** `mouseMoveEvent`: only the moving corner follows the cursor. */
  function Move(d: Drag, pos: Point): (r: Drag)
    ensures r.start == d.start && r.end == pos
  {
    d.(end := pos)
  }

  /** An axis-aligned rectangle by its coordinates (left, top, right, bottom). */
  datatype Rect = Rect(left: int, top: int, right: int, bottom: int)

  function Min(a: int, b: int): int { if a <= b then a else b }
  function Max(a: int, b: int): int { if a <= b then b else a }

  /** `QRect(a, b).normalized()`, taken as the per-axis minimum and maximum of the two corners. */
  function Normalized(a: Point, b: Point): (r: Rect)
    ensures r.left <= r.right && r.top <= r.bottom
    ensures (r.left == a.x && r.right == b.x) || (r.left == b.x && r.right == a.x)
    ensures (r.top == a.y && r.bottom == b.y) || (r.top == b.y && r.bottom == a.y)
  {
    Rect(Min(a.x, b.x), Min(a.y, b.y), Max(a.x, b.x), Max(a.y, b.y))
  }

  /** The rectangle does not depend on which corner was pressed first. */
  lemma NormalizedSymmetric(a: Point, b: Point)
    ensures Normalized(a, b) == Normalized(b, a)
  {
  }

  /** `ImageGrab.grab(bbox=r.getCoords())`: the screen region under the rectangle, as wide and
      as high as the rectangle, so it holds no pixel exactly when the rectangle is flat. */
  function Grab(r: Rect): (img: Image)
    ensures img.Width() == r.right - r.left && img.Height() == r.bottom - r.top
    ensures img.IsEmpty() <==> r.right <= r.left || r.bottom <= r.top
  {
    ScreenGrab(r.left, r.top, r.right, r.bottom)
  }

  /** A click without a drag grabs an image without pixels. */
  lemma ClickGrabsNothing(p: Point)
    ensures Grab(Normalized(p, p)).IsEmpty()
  {
  }

  // ----- Screenshots -----

  /** What a `ScreenShot` holds as its image: an image, or (on one path of the source) another
      `ScreenShot` object. */
  datatype Picture = Raw(img: Image) | Wrapped(shot: ScreenShot)

  /** A capture result: the file path and the image. */
  datatype ScreenShot = ScreenShot(path: string, image: Picture)

  /** The blank placeholder: 400 by 300, white. */
  const Placeholder: Image := WhiteCanvas(400, 300)

  /** `ScreenShot(path, image)`: a given image is kept and nothing is read; otherwise the file
      at `path` is opened, and when there is none a white 400x300 placeholder is made and saved
      there. */
  function NewScreenShot(path: string, image: Option<Picture>, fs: FileTree): (r: Result<(ScreenShot, FileTree), OsError>)
    ensures image.Some? ==> r == Success((ScreenShot(path, image.value), fs))
    ensures image.None? && FileExists(fs, path) ==> r == Success((ScreenShot(path, Raw(fs[Dirname(path)][Basename(path)])), fs))
    ensures image.None? && !FileExists(fs, path) && DirExists(fs, Dirname(path)) ==>
      && r.Success?
      && r.value.0 == ScreenShot(path, Raw(Placeholder))
      && r.value.1 == PutFile(fs, path, Placeholder)
      && ReadFile(r.value.1, path) == Success(Placeholder)
    ensures image.None? && !DirExists(fs, Dirname(path)) ==> r.Failure?
    ensures image.None? && r.Success? ==> DirExists(r.value.1, Dirname(path)) && r.value.0.image.Raw?
  {
    if image.Some? then Success((ScreenShot(path, image.value), fs))
    else match ReadFile(fs, path)
      case Success(img) => Success((ScreenShot(path, Raw(img)), fs))
      case Failure(_) =>
        var fs' :- WriteFile(fs, path, Placeholder);
        Success((ScreenShot(path, Raw(Placeholder)), fs'))
  }

  /** A picture that is an image, or a `ScreenShot` directly holding an image. */
  predicate Flat(p: Picture) {
    p.Wrapped? ==> p.shot.image.Raw?
  }

  /** The image a flat picture carries. */
  function Pixels(p: Picture): Image
    requires Flat(p)
  {
    match p
    case Raw(img) => img
    case Wrapped(shot) => shot.image.img
  }

  /** The overlay window: where it saves, the drag, the last capture, and whether it closed. */
  datatype Widget = Widget(path: string, drag: Drag, last: Option<Picture>, closed: bool)

  /** `mouseReleaseEvent`: grab the normalised rectangle and save it; saving an image without
      pixels raises `ValueError`, and then the result is `ScreenShot(path)`, saved again. The
      corners go back to the origin and the window closes. */
  function Release(w: Widget, fs: FileTree): (r: Result<(Widget, FileTree), OsError>)
    ensures r.Success? ==> r.value.0.drag == Idle && r.value.0.closed && r.value.0.path == w.path
    ensures r.Success? ==> FileExists(r.value.1, w.path)
    ensures r.Success? ==> r.value.1.Keys == fs.Keys
    ensures DirExists(fs, Dirname(w.path)) ==> r.Success?
    ensures r.Success? ==> r.value.0.last.Some? && Flat(r.value.0.last.value)
    ensures r.Success? && !FileExists(fs, w.path) ==> !Pixels(r.value.0.last.value).IsEmpty()
    ensures var img := Grab(Normalized(w.drag.start, w.drag.end));
      !img.IsEmpty() && r.Success? ==> r.value.0.last == Some(Raw(img))
    ensures var img := Grab(Normalized(w.drag.start, w.drag.end));
      img.IsEmpty() && r.Success? ==>
        NewScreenShot(w.path, None, fs).Success? && r.value.0.last == Some(Wrapped(NewScreenShot(w.path, None, fs).value.0))
    ensures r.Success? ==> ReadFile(r.value.1, w.path) == Success(Pixels(r.value.0.last.value))
    ensures r.Success? ==> DirExists(fs, Dirname(w.path)) && r.value.1 == PutFile(fs, w.path, Pixels(r.value.0.last.value))
  {
    var img := Grab(Normalized(w.drag.start, w.drag.end));
    if !img.IsEmpty() then
      var fs' :- WriteFile(fs, w.path, img);
      Success((w.(drag := Idle, last := Some(Raw(img)), closed := true), fs'))
    else
      var made :- NewScreenShot(w.path, None, fs);
      var shot := made.0;
      var saved := WriteFile(made.1, w.path, shot.image.img);
      PutFileOverwrite(fs, w.path, Placeholder, shot.image.img);
      Success((w.(drag := Idle, last := Some(Wrapped(shot)), closed := true), saved.value))
  }

  /** A mouse event delivered to the overlay. */
  datatype MouseEvent = MousePress(pos: Point) | MouseMove(pos: Point) | MouseRelease(pos: Point)

  /** Deliver events until the window closes; events after the release are never seen. */
  function Run(w: Widget, events: seq<MouseEvent>, fs: FileTree): (r: Result<(Widget, FileTree), OsError>)
    ensures r.Success? ==> r.value.0.path == w.path
    ensures r.Success? && w.closed ==> r.value == (w, fs)
    ensures r.Success? && DirExists(fs, Dirname(w.path)) ==> DirExists(r.value.1, Dirname(w.path))
    ensures DirExists(fs, Dirname(w.path)) ==> r.Success?
    ensures r.Success? && r.value.0.closed && !w.closed ==> FileExists(r.value.1, w.path) && r.value.0.last.Some?
    ensures r.Success? && r.value.0.closed && !w.closed ==> Flat(r.value.0.last.value)
    ensures r.Success? && r.value.0.closed && !w.closed && !FileExists(fs, w.path) ==> !Pixels(r.value.0.last.value).IsEmpty()
    ensures r.Success? && r.value.0.closed && !w.closed ==>
      DirExists(fs, Dirname(w.path)) && r.value.1 == PutFile(fs, w.path, Pixels(r.value.0.last.value))
    ensures r.Success? && !r.value.0.closed ==> r.value.1 == fs
    decreases |events|
  {
    if w.closed || |events| == 0 then Success((w, fs))
    else match events[0]
      case MousePress(p) => Run(w.(drag := Press(w.drag, p)), events[1..], fs)
      case MouseMove(p) => Run(w.(drag := Move(w.drag, p)), events[1..], fs)
      case MouseRelease(_) =>
        var released :- Release(w, fs);
        Success(released)
  }

  /** Pressing at `p`, dragging to `q` and releasing there on an open overlay grabs the
      rectangle spanned by `p` and `q`: when it has pixels, that grab is the last capture and
      the file saved at the overlay's path. */
  lemma DragGrabs(w: Widget, fs: FileTree, p: Point, q: Point)
    requires !w.closed
    requires DirExists(fs, Dirname(w.path))
    requires !Grab(Normalized(p, q)).IsEmpty()
    ensures var r := Run(w, [MousePress(p), MouseMove(q), MouseRelease(q)], fs);
      && r.Success? && r.value.0.closed
      && r.value.0.last == Some(Raw(Grab(Normalized(p, q))))
      && ReadFile(r.value.1, w.path) == Success(Grab(Normalized(p, q)))
  {
    var w1 := w.(drag := Press(w.drag, p));
    var w2 := w1.(drag := Move(w1.drag, q));
    RunStep(w, MousePress(p), [MouseMove(q), MouseRelease(q)], fs);
    RunStep(w1, MouseMove(q), [MouseRelease(q)], fs);
    RunStep(w2, MouseRelease(q), [], fs);
  }

  /** One event delivered to an open overlay, followed by the rest. */
  lemma RunStep(w: Widget, e: MouseEvent, rest: seq<MouseEvent>, fs: FileTree)
    requires !w.closed
    ensures e.MousePress? ==> Run(w, [e] + rest, fs) == Run(w.(drag := Press(w.drag, e.pos)), rest, fs)
    ensures e.MouseMove? ==> Run(w, [e] + rest, fs) == Run(w.(drag := Move(w.drag, e.pos)), rest, fs)
    ensures e.MouseRelease? ==> Run(w, [e] + rest, fs) == Release(w, fs)
  {
    assert ([e] + rest)[1..] == rest;
  }

  /** Why `make_screenshot` gave no result: a file-system call raised, or the user never
      released the button, so the blocking call never returns. */
  datatype CaptureError = Io(e: OsError) | Abandoned

  /** The overlay at the start of a capture, with its save path chosen. */
  function OpenWidget(f: Fields, now: DateTime, mainDir: string, fs: FileTree): (c: (Widget, FileTree))
    requires ValidDateTime(now)
  {
    var choice := ScreenshotPath(f.savePhotos, f.saveFolder, None, now, mainDir, fs);
    (Widget(choice.path, Idle, None, false), choice.fs)
  }

  /** `make_screenshot` as written: the widget's path and its last capture are handed to
      `ScreenShot(...)`. On the fallback path the last capture is itself a `ScreenShot`, so the
      result's image is a `ScreenShot` wrapped inside another. There is a result exactly when
      the overlay closed; it holds the overlay's last capture, whatever its kind, and the file
      tree the overlay left. */
  function MakeScreenshotAsWritten(f: Fields, now: DateTime, mainDir: string, events: seq<MouseEvent>, fs: FileTree)
    : (r: Result<(ScreenShot, FileTree), CaptureError>)
    requires ValidDateTime(now)
    ensures r.Success? ==> r.value.0.path == OpenWidget(f, now, mainDir, fs).0.path
    ensures var o := OpenWidget(f, now, mainDir, fs); var run := Run(o.0, events, o.1);
      r.Success? <==> run.Success? && run.value.0.closed
    ensures var o := OpenWidget(f, now, mainDir, fs); var run := Run(o.0, events, o.1);
      r.Success? ==> r.value == (ScreenShot(o.0.path, run.value.0.last.value), run.value.1)
    ensures var o := OpenWidget(f, now, mainDir, fs); var run := Run(o.0, events, o.1);
      run.Success? && !run.value.0.closed ==> r == Failure(Abandoned)
  {
    var (w0, fs0) := OpenWidget(f, now, mainDir, fs);
    match Run(w0, events, fs0)
    case Failure(e) => Failure(Io(e))
    case Success((w, fs1)) =>
      if !w.closed then Failure(Abandoned)
      else match NewScreenShot(w.path, w.last, fs1)
        case Failure(e) => Failure(Io(e))
        case Success(made) => Success(made)
  }

  /** A click at `p` (press and release without moving). */
  function Click(p: Point): seq<MouseEvent> {
    [MousePress(p), MouseRelease(p)]
  }

  /** As written, a click when no file is at the capture path yet (the usual case: the name
      carries the time) makes `make_screenshot` return a `ScreenShot` whose image is not an
      image but another `ScreenShot` (holding the placeholder). */
  lemma ClickNestsScreenShot(f: Fields, now: DateTime, mainDir: string, fs: FileTree, p: Point)
    requires ValidDateTime(now)
    requires PlainDir(CaptureDir(f.savePhotos, f.saveFolder, mainDir))
    requires !FileExists(fs, Join(CaptureDir(f.savePhotos, f.saveFolder, mainDir), TimestampName(now)))
    ensures var r := MakeScreenshotAsWritten(f, now, mainDir, Click(p), fs);
      r.Success? && r.value.0.image.Wrapped? && r.value.0.image.shot.image == Raw(Placeholder)
  {
    var o := OpenWidget(f, now, mainDir, fs);
    OpenWidgetReady(f, now, mainDir, fs);
    OpenWidgetAddsNoFile(f, now, mainDir, fs, o.0.path);
    RunClick(o.0, o.1, p);
    var r := MakeScreenshotAsWritten(f, now, mainDir, Click(p), fs);
    var fs1 := Run(o.0, Click(p), o.1).value.1;
    assert r == Success((ScreenShot(o.0.path, Wrapped(ScreenShot(o.0.path, Raw(Placeholder)))), fs1));
  }

  /** A freshly opened overlay is open, idle, and its save directory exists. */
  lemma OpenWidgetReady(f: Fields, now: DateTime, mainDir: string, fs: FileTree)
    requires ValidDateTime(now)
    requires PlainDir(CaptureDir(f.savePhotos, f.saveFolder, mainDir))
    ensures var o := OpenWidget(f, now, mainDir, fs);
      !o.0.closed && o.0.last.None? && DirExists(o.1, Dirname(o.0.path))
    ensures var o := OpenWidget(f, now, mainDir, fs);
      o.0.path == Join(CaptureDir(f.savePhotos, f.saveFolder, mainDir), TimestampName(now))
  {
    ScreenshotPathParts(f.savePhotos, f.saveFolder, None, now, mainDir, fs);
  }

  /** Opening the overlay creates at most its directory, never a file. */
  lemma OpenWidgetAddsNoFile(f: Fields, now: DateTime, mainDir: string, fs: FileTree, path: string)
    requires ValidDateTime(now)
    ensures FileExists(OpenWidget(f, now, mainDir, fs).1, path) ==> FileExists(fs, path)
  {
    var fs1 := OpenWidget(f, now, mainDir, fs).1;
    var dir := CaptureDir(f.savePhotos, f.saveFolder, mainDir);
    if Dirname(path) !in fs && Dirname(path) in fs1 {
      assert Dirname(path) == dir;
      assert fs1[dir] == map[];
    }
  }

  /** A click on an open overlay whose path holds no file yet closes it with the placeholder
      wrapped in a `ScreenShot` as its last capture. */
  lemma RunClick(w: Widget, fs: FileTree, p: Point)
    requires !w.closed
    requires DirExists(fs, Dirname(w.path))
    requires !FileExists(fs, w.path)
    ensures Run(w, Click(p), fs).Success?
    ensures Run(w, Click(p), fs).value.0.closed
    ensures Run(w, Click(p), fs).value.0.last == Some(Wrapped(ScreenShot(w.path, Raw(Placeholder))))
  {
  }

  /** `make_screenshot` as evidently intended: the result's image is the captured image, taken
      out of the fallback `ScreenShot` when that path was used. When the path held no file
      before, that image always has pixels, even for a click without a drag. */
  function MakeScreenshot(f: Fields, now: DateTime, mainDir: string, events: seq<MouseEvent>, fs: FileTree)
    : (r: Result<(ScreenShot, FileTree), CaptureError>)
    requires ValidDateTime(now)
    ensures var o := OpenWidget(f, now, mainDir, fs); var run := Run(o.0, events, o.1);
      r.Success? <==> run.Success? && run.value.0.closed
    ensures var o := OpenWidget(f, now, mainDir, fs); var run := Run(o.0, events, o.1);
      r.Success? ==> r.value == (ScreenShot(o.0.path, Raw(Pixels(run.value.0.last.value))), run.value.1)
    ensures r.Success? ==> r.value.0.path == OpenWidget(f, now, mainDir, fs).0.path
    ensures r.Success? ==> r.value.0.image.Raw?
    ensures r.Success? && !FileExists(OpenWidget(f, now, mainDir, fs).1, r.value.0.path) ==> !r.value.0.image.img.IsEmpty()
    ensures r.Success? ==> FileExists(r.value.1, r.value.0.path)
    ensures var o := OpenWidget(f, now, mainDir, fs);
      r.Success? ==> DirExists(o.1, Dirname(o.0.path)) && r.value.1 == PutFile(o.1, o.0.path, r.value.0.image.img)
  {
    var (w0, fs0) := OpenWidget(f, now, mainDir, fs);
    match Run(w0, events, fs0)
    case Failure(e) => Failure(Io(e))
    case Success((w, fs1)) =>
      if !w.closed then Failure(Abandoned)
      else Success((ScreenShot(w.path, Raw(Pixels(w.last.value))), fs1))
  }

  /** The corrected `make_screenshot` differs from the one as written only in the result's
      image: the two fail alike, and on success they name the same path and leave the same
      file tree, the corrected image being the pixels of the as-written one. */
  lemma MakeScreenshotAgrees(f: Fields, now: DateTime, mainDir: string, events: seq<MouseEvent>, fs: FileTree)
    requires ValidDateTime(now)
    ensures var a, c := MakeScreenshotAsWritten(f, now, mainDir, events, fs), MakeScreenshot(f, now, mainDir, events, fs);
      && (a.Failure? ==> c == a)
      && (a.Success? ==> c.Success? && c.value.0.path == a.value.0.path && c.value.1 == a.value.1)
      && (a.Success? ==> Flat(a.value.0.image) && c.value.0.image == Raw(Pixels(a.value.0.image)))
  {
  }
}

=== FILE: config.dfy ===
/** The settings store: seven typed fields read from a key/value backing store with a
    documented default for every missing key, partial updates that write all seven keys and
    re-read them, clearing, and autostart registration in a separate registry store. */
module Config {
  import opened Wrappers

  /** The application title: the settings scope and the autostart registry key. */
  const Title: string := "Text Extractor App"

  /** Tesseract codes of the two default OCR languages; the language catalogue is not part of
      this model, so their spelling is left open. */
  const English: string
  const OrientationModule: string

  /** A value held by a backing store. `Null` is a stored Python `None`. */
  datatype Value = Str(s: string) | Bool(b: bool) | List(items: seq<string>) | Null

  /** A key/value backing store (the settings scope, or the Windows Run registry key). */
  type Store = map<string, Value>

  /** The seven settings keys. */
  datatype Key = ThemeKey | LogoKey | NotificationsKey | SavePhotosKey | SaveFolderKey | LanguagesKey | HotkeyKey {

    /** The key's name in the store. */
    function Name(): string {
      match this
      case ThemeKey => "theme"
      case LogoKey => "logo"
      case NotificationsKey => "notifications"
      case SavePhotosKey => "save_photos"
      case SaveFolderKey => "save_folder"
      case LanguagesKey => "languages"
      case HotkeyKey => "hotkey"
    }
  }

  /** The names of the seven settings keys. */
  const Keys: set<string> := {"theme", "logo", "notifications", "save_photos", "save_folder", "languages", "hotkey"}

  /** The display theme. */
  datatype Theme = Dark | Light {

    /** The string the member stands for. */
    function Value(): string {
      match this
      case Dark => "dark"
      case Light => "light"
    }

    /** `Theme.__eq__` against a string: equal exactly when the string is the member's value. */
    predicate Matches(s: string) {
      Value() == s
    }
  }

  /** The tray icon variant; `LogoDefault` follows the display theme. */
  datatype LogoTheme = LogoDark | LogoLight | LogoDefault {

    function Value(): string {
      match this
      case LogoDark => "dark"
      case LogoLight => "light"
      case LogoDefault => "default"
    }

    /** `LogoTheme.__eq__` against a string. */
    predicate Matches(s: string) {
      Value() == s
    }
  }

  /** `Theme(s)`: the member whose value is `s`; any other string raises (`None` here). */
  function ParseTheme(s: string): Option<Theme> {
    if s == "dark" then Some(Dark)
    else if s == "light" then Some(Light)
    else None
  }

  /** `LogoTheme(s)`. */
  function ParseLogoTheme(s: string): Option<LogoTheme> {
    if s == "dark" then Some(LogoDark)
    else if s == "light" then Some(LogoLight)
    else if s == "default" then Some(LogoDefault)
    else None
  }

  /** A theme member compares equal to a string exactly when the string names that member. */
  lemma ThemeMatchesIffParses(t: Theme, s: string)
    ensures t.Matches(s) <==> ParseTheme(s) == Some(t)
  {
  }

  /** A logo-theme member compares equal to a string exactly when the string names it. */
  lemma LogoThemeMatchesIffParses(t: LogoTheme, s: string)
    ensures t.Matches(s) <==> ParseLogoTheme(s) == Some(t)
  {
  }

  /** The in-memory fields of a settings object. `theme` and `logoTheme` hold the strings read
      from the store, as the source does. */
  datatype Fields = Fields(
    theme: string,
    logoTheme: string,
    notifications: bool,
    savePhotos: bool,
    saveFolder: Option<string>,
    languages: seq<string>,
    hotkey: string)

  /** A settings object: its backing store and the fields last read from it. */
  datatype Settings = Settings(store: Store, fields: Fields)

  /** The documented defaults; the theme follows the operating system's dark-mode flag. */
  function Defaults(isDark: bool): Fields {
    Fields(
      if isDark then Dark.Value() else Light.Value(),
      LogoDefault.Value(),
      false,
      false,
      None,
      [English, OrientationModule],
      "shift+alt+a")
  }

  // Typed reads: a missing key, or a key holding a value of another kind, reads as the default.

  function ReadStr(store: Store, key: string, default: string): string {
    if key in store && store[key].Str? then store[key].s else default
  }

  function ReadBool(store: Store, key: string, default: bool): bool {
    if key in store && store[key].Bool? then store[key].b else default
  }

  function ReadOptStr(store: Store, key: string): Option<string> {
    if key in store && store[key].Str? then Some(store[key].s) else None
  }

  function ReadList(store: Store, key: string, default: seq<string>): seq<string> {
    if key in store && store[key].List? then store[key].items else default
  }

  function SaveFolderValue(folder: Option<string>): Value {
    match folder
    case Some(f) => Str(f)
    case None => Null
  }

  /** The value a field is stored as under its key. */
  function FieldValue(f: Fields, k: Key): Value {
    match k
    case ThemeKey => Str(f.theme)
    case LogoKey => Str(f.logoTheme)
    case NotificationsKey => Bool(f.notifications)
    case SavePhotosKey => Bool(f.savePhotos)
    case SaveFolderKey => SaveFolderValue(f.saveFolder)
    case LanguagesKey => List(f.languages)
    case HotkeyKey => Str(f.hotkey)
  }

  /** A stored value of the kind its key is read as: a flag, a list, a string, or for the save
      folder a string or `None`. */
  predicate WellTyped(k: Key, v: Value) {
    match k
    case NotificationsKey => v.Bool?
    case SavePhotosKey => v.Bool?
    case LanguagesKey => v.List?
    case SaveFolderKey => v.Str? || v.Null?
    case _ => v.Str?
  }

  /** What reading key `k` yields, as a stored value: the stored value when it is of the right
      kind, the key's default otherwise. */
  function Stored(store: Store, k: Key, isDark: bool): Value {
    if k.Name() in store && WellTyped(k, store[k.Name()]) then store[k.Name()] else FieldValue(Defaults(isDark), k)
  }

  /** Every field is stored as a value of its key's kind. */
  lemma FieldValueWellTyped(f: Fields, k: Key)
    ensures WellTyped(k, FieldValue(f, k))
  {
  }

  /** The seven stored values pin the fields down. */
  lemma FieldValuesDetermine(f: Fields, g: Fields)
    requires forall k: Key :: FieldValue(f, k) == FieldValue(g, k)
    ensures f == g
  {
    assert FieldValue(f, ThemeKey) == FieldValue(g, ThemeKey);
    assert FieldValue(f, LogoKey) == FieldValue(g, LogoKey);
    assert FieldValue(f, NotificationsKey) == FieldValue(g, NotificationsKey);
    assert FieldValue(f, SavePhotosKey) == FieldValue(g, SavePhotosKey);
    assert FieldValue(f, SaveFolderKey) == FieldValue(g, SaveFolderKey);
    assert FieldValue(f, LanguagesKey) == FieldValue(g, LanguagesKey);
    assert FieldValue(f, HotkeyKey) == FieldValue(g, HotkeyKey);
  }

  /** `__update_values`: read the seven keys, each with its default. */
  function Load(store: Store, isDark: bool): Fields {
    var d := Defaults(isDark);
    Fields(
      ReadStr(store, "theme", d.theme),
      ReadStr(store, "logo", d.logoTheme),
      ReadBool(store, "notifications", d.notifications),
      ReadBool(store, "save_photos", d.savePhotos),
      ReadOptStr(store, "save_folder"),
      ReadList(store, "languages", d.languages),
      ReadStr(store, "hotkey", d.hotkey))
  }

  /** What `__update_values` reads: each of the seven keys reads as its stored value when that
      value is of the key's kind, and as the key's default when the key is missing or holds
      another kind. */
  lemma LoadReads(store: Store, isDark: bool)
    ensures forall k: Key :: FieldValue(Load(store, isDark), k) == Stored(store, k, isDark)
  {
  }

  /** Keys other than the seven do not affect what is read. */
  lemma LoadIgnoresOtherKeys(store: Store, key: string, v: Value, isDark: bool)
    requires key !in Keys
    ensures Load(store[key := v], isDark) == Load(store, isDark)
  {
    var a := Load(store[key := v], isDark);
    var b := Load(store, isDark);
    LoadReads(store[key := v], isDark);
    LoadReads(store, isDark);
    forall k: Key ensures FieldValue(a, k) == FieldValue(b, k) {
      assert k.Name() in Keys;
      assert Stored(store[key := v], k, isDark) == Stored(store, k, isDark);
    }
    FieldValuesDetermine(a, b);
  }

  /** The fields agree with what the store holds. */
  predicate Synced(s: Settings, isDark: bool) {
    s.fields == Load(s.store, isDark)
  }

  /** `Settings()`: open the store and read it; every field holds what its key reads as. */
  function Open(store: Store, isDark: bool): (s: Settings)
    ensures s.store == store
    ensures forall k: Key :: FieldValue(s.fields, k) == Stored(store, k, isDark)
    ensures Synced(s, isDark)
  {
    LoadReads(store, isDark);
    Settings(store, Load(store, isDark))
  }

  /** A fresh, empty store reads as exactly the documented defaults. */
  lemma FreshStoreDefaults(isDark: bool)
    ensures Load(map[], isDark).theme == (if isDark then "dark" else "light")
    ensures Load(map[], isDark).logoTheme == "default"
    ensures !Load(map[], isDark).notifications
    ensures !Load(map[], isDark).savePhotos
    ensures Load(map[], isDark).saveFolder == None
    ensures Load(map[], isDark).languages == [English, OrientationModule]
    ensures Load(map[], isDark).hotkey == "shift+alt+a"
  {
  }

  /** The arguments of `set_values`; `None` means "keep the current value". */
  datatype Update = Update(
    theme: Option<Theme>,
    logoTheme: Option<LogoTheme>,
    notifications: Option<bool>,
    savePhotos: Option<bool>,
    saveFolder: Option<string>,
    languages: Option<seq<string>>,
    hotkey: Option<string>)

  /** `set_values()` with no argument. */
  const NoChange: Update := Update(None, None, None, None, None, None, None)

  /** The fields `set_values` means to leave behind: each supplied argument, else the current
      field. */
  function Apply(cur: Fields, u: Update): Fields {
    Fields(
      if u.theme.Some? then u.theme.value.Value() else cur.theme,
      if u.logoTheme.Some? then u.logoTheme.value.Value() else cur.logoTheme,
      u.notifications.GetOr(cur.notifications),
      u.savePhotos.GetOr(cur.savePhotos),
      if u.saveFolder.Some? then u.saveFolder else cur.saveFolder,
      u.languages.GetOr(cur.languages),
      u.hotkey.GetOr(cur.hotkey))
  }

  /** `__set_values`: one `setValue` per key, taking the supplied argument or else the current
      in-memory field. The seven keys then hold the stored form of `Apply(cur, u)` and every
      other key is as it was. */
  function Write(store: Store, cur: Fields, u: Update): (r: Store)
    ensures r.Keys == store.Keys + Keys
    ensures forall k: Key :: r[k.Name()] == FieldValue(Apply(cur, u), k)
    ensures forall k :: k in store && k !in Keys ==> r[k] == store[k]
  {
    var r := store["theme" := Str(if u.theme.Some? then u.theme.value.Value() else cur.theme)]
      ["logo" := Str(if u.logoTheme.Some? then u.logoTheme.value.Value() else cur.logoTheme)]
      ["notifications" := Bool(u.notifications.GetOr(cur.notifications))]
      ["save_photos" := Bool(u.savePhotos.GetOr(cur.savePhotos))]
      ["save_folder" := SaveFolderValue(if u.saveFolder.Some? then u.saveFolder else cur.saveFolder)]
      ["languages" := List(u.languages.GetOr(cur.languages))]
      ["hotkey" := Str(u.hotkey.GetOr(cur.hotkey))];
    forall k: Key ensures r[k.Name()] == FieldValue(Apply(cur, u), k) {
      if k.ThemeKey? {
      } else if k.LogoKey? {
      } else if k.NotificationsKey? {
      } else if k.SavePhotosKey? {
      } else if k.SaveFolderKey? {
      } else if k.LanguagesKey? {
      }
    }
    r
  }

  /** `set_values`: write through the store, then re-read every field from it. Each supplied
      field takes its new value, each absent one keeps its pre-call value, all seven keys end
      up present, and no other key of the store changes. */
  function SetValues(s: Settings, u: Update, isDark: bool): (r: Settings)
    ensures Synced(r, isDark)
    ensures r.fields.theme == (if u.theme.Some? then u.theme.value.Value() else s.fields.theme)
    ensures r.fields.logoTheme == (if u.logoTheme.Some? then u.logoTheme.value.Value() else s.fields.logoTheme)
    ensures r.fields.notifications == (if u.notifications.Some? then u.notifications.value else s.fields.notifications)
    ensures r.fields.savePhotos == (if u.savePhotos.Some? then u.savePhotos.value else s.fields.savePhotos)
    ensures r.fields.saveFolder == (if u.saveFolder.Some? then u.saveFolder else s.fields.saveFolder)
    ensures r.fields.languages == (if u.languages.Some? then u.languages.value else s.fields.languages)
    ensures r.fields.hotkey == (if u.hotkey.Some? then u.hotkey.value else s.fields.hotkey)
    ensures r.store.Keys == s.store.Keys + Keys
    ensures forall k :: k in s.store && k !in Keys ==> r.store[k] == s.store[k]
  {
    var store := Write(s.store, s.fields, u);
    WriteReadsBack(s.store, s.fields, u, isDark);
    Settings(store, Load(store, isDark))
  }

  /** Reading the store right after `Write` gives back the fields the write meant to leave. */
  lemma WriteReadsBack(store: Store, cur: Fields, u: Update, isDark: bool)
    ensures Load(Write(store, cur, u), isDark) == Apply(cur, u)
  {
    var w := Write(store, cur, u);
    var a := Apply(cur, u);
    LoadReads(w, isDark);
    forall k: Key ensures FieldValue(Load(w, isDark), k) == FieldValue(a, k) {
      FieldValueWellTyped(a, k);
    }
    FieldValuesDetermine(Load(w, isDark), a);
  }

  /** `set_values()` with no argument changes no field, yet afterwards every key is stored. */
  lemma SetNothingKeepsFields(s: Settings, isDark: bool)
    ensures SetValues(s, NoChange, isDark).fields == s.fields
    ensures Keys <= SetValues(s, NoChange, isDark).store.Keys
  {
  }

  /** Once a save folder is set, no call of `set_values` can take it back to `None`. */
  lemma SaveFolderNeverReset(s: Settings, u: Update, isDark: bool)
    requires s.fields.saveFolder.Some?
    ensures SetValues(s, u, isDark).fields.saveFolder.Some?
  {
  }

  /** `clear`: erase every key, then re-read; the fields are then the defaults. */
  function Clear(s: Settings, isDark: bool): (r: Settings)
    ensures r.store == map[]
    ensures r.fields == Defaults(isDark)
    ensures Synced(r, isDark)
  {
    Settings(map[], Load(map[], isDark))
  }

  /** `auto_start(enable)`: register the executable under the title, or remove the entry. */
  function AutoStart(registry: Store, enable: bool, exePath: string): (r: Store)
    ensures forall k :: k in registry && k != Title ==> k in r && r[k] == registry[k]
    ensures forall k :: k in r && k != Title ==> k in registry
  {
    if enable then registry[Title := Str(exePath)] else registry - {Title}
  }

  /** `is_auto_started()`: the title is a key of the registry. */
  function IsAutoStarted(registry: Store): bool {
    Title in registry
  }

  /** After `auto_start(enable)` the query answers `enable`. */
  lemma AutoStartObserved(registry: Store, enable: bool, exePath: string)
    ensures IsAutoStarted(AutoStart(registry, enable, exePath)) == enable
  {
  }

  /** Repeating `auto_start(enable)` changes nothing more. */
  lemma AutoStartIdempotent(registry: Store, enable: bool, exePath: string)
    ensures AutoStart(AutoStart(registry, enable, exePath), enable, exePath) == AutoStart(registry, enable, exePath)
  {
  }
}

=== FILE: extractor.dfy ===
/** The extraction worker: the listener-process lifecycle (start, stop, restart, hotkey
    update), the OCR language selector, and one activation of the hotkey — capture, clean-up of
    an unwanted capture file, OCR to the clipboard, the engine-missing error, and the
    notification. */
module Extractor {
  import opened Wrappers
  import opened Strings
  import opened Files
  import opened Config
  import opened Utils
  import opened Capture

  /** The OCR engine's multi-language selector: the language codes joined with "+". */
  function LanguageSelector(languages: seq<string>): string {
    JoinOn(languages, '+')
  }

  /** The selector carries every configured code, in order: splitting it on "+" gives the codes
      back whenever there is at least one and none holds a "+". */
  lemma LanguageSelectorRoundTrip(languages: seq<string>)
    requires |languages| > 0
    requires forall k :: 0 <= k < |languages| ==> Free(languages[k], '+')
    ensures SplitOn(LanguageSelector(languages), '+') == languages
  {
    SplitJoin(languages, '+');
  }

  /** A live listener process: the hotkey it registered, and the settings its own copy of the
      class read when the process started. The class attributes `__settings` and `languages` are
      evaluated afresh in each new process, so a listener keeps the notification flag, the save
      flag and the OCR languages the store held at its start-up. */
  datatype Listener = Listener(hotkey: string, settings: Fields)

  /** The worker and the processes it has spawned: `handle` is the process it holds a reference
      to, `listeners` maps every live listener process to what it runs with, and `nextPid` is the
      id the next spawned process gets. */
  datatype Worker = Worker(hotkey: string, handle: Option<nat>, listeners: map<nat, Listener>, nextPid: nat)

  /** Process ids already handed out are below `nextPid`. */
  predicate Fresh(w: Worker) {
    && (forall p :: p in w.listeners ==> p < w.nextPid)
    && (w.handle.Some? ==> w.handle.value < w.nextPid)
  }

  /** No live listener is left without the worker holding it. */
  predicate NoOrphans(w: Worker) {
    forall p :: p in w.listeners ==> w.handle == Some(p)
  }

  /** Exactly one listener is live, it is the one held, and it listens for the worker's hotkey. */
  predicate SingleListener(w: Worker) {
    && w.handle.Some?
    && w.listeners.Keys == {w.handle.value}
    && w.listeners[w.handle.value].hotkey == w.hotkey
  }

  /** `start_event_loop`: spawn a listener for the current hotkey and hold it; `settings` is what
      the new process reads from the store as it starts. A listener already held is not stopped;
      only the reference to it is overwritten. */
  function Start(w: Worker, settings: Fields): (r: Worker)
    requires Fresh(w)
    ensures Fresh(r)
    ensures r.hotkey == w.hotkey
    ensures r.handle.Some? && r.handle.value !in w.listeners
    ensures r.listeners == w.listeners[r.handle.value := Listener(w.hotkey, settings)]
  {
    var pid := w.nextPid;
    w.(handle := Some(pid), listeners := w.listeners[pid := Listener(w.hotkey, settings)], nextPid := pid + 1)
  }

  /** `stop_event_loop`: terminate the held listener, if any, and drop the reference. With
      nothing held it does nothing. */
  function Stop(w: Worker): (r: Worker)
    requires Fresh(w)
    ensures Fresh(r)
    ensures w.handle.None? ==> r == w
    ensures w.handle.Some? ==> r.handle.None? && r.hotkey == w.hotkey && r.nextPid == w.nextPid
    ensures w.handle.Some? ==> r.listeners.Keys == w.listeners.Keys - {w.handle.value}
    ensures forall p :: p in r.listeners ==> p in w.listeners && r.listeners[p] == w.listeners[p]
  {
    match w.handle
    case None => w
    case Some(pid) => w.(handle := None, listeners := w.listeners - {pid})
  }

  /** The live listeners other than the one held. */
  function Unheld(w: Worker): map<nat, Listener> {
    if w.handle.Some? then w.listeners - {w.handle.value} else w.listeners
  }

  /** `restart_event_loop`: stop, then start. The listener that was held is gone, a new one for
      the current hotkey and the given start-up settings is held, and no other listener is
      touched. */
  function Restart(w: Worker, settings: Fields): (r: Worker)
    requires Fresh(w)
    ensures Fresh(r)
    ensures r.hotkey == w.hotkey
    ensures r.handle.Some? && r.handle.value !in w.listeners
    ensures r.handle.value in r.listeners && r.listeners[r.handle.value] == Listener(w.hotkey, settings)
    ensures w.handle.Some? ==> w.handle.value !in r.listeners
    ensures forall p :: p in r.listeners && Some(p) != r.handle ==> p in w.listeners && Some(p) != w.handle
    ensures r.listeners == Unheld(w)[r.handle.value := Listener(w.hotkey, settings)]
  {
    Start(Stop(w), settings)
  }

  /** When every live listener is held, a restart leaves exactly one live listener, for the
      current hotkey. */
  lemma RestartLeavesSingleListener(w: Worker, settings: Fields)
    requires Fresh(w)
    requires NoOrphans(w)
    ensures SingleListener(Restart(w, settings))
  {
  }

  /** Starting twice leaves two live listeners: the first is orphaned, not stopped. */
  lemma StartTwiceLeavesTwoListeners(w: Worker, s1: Fields, s2: Fields)
    requires Fresh(w)
    ensures var r := Start(Start(w, s1), s2);
      w.nextPid in r.listeners && w.nextPid + 1 in r.listeners && r.handle == Some(w.nextPid + 1)
  {
  }

  /** `update_hotkey`: the hotkey is always replaced; the listener is restarted exactly when
      asked to, and otherwise keeps listening for whatever it registered. */
  function UpdateHotkey(w: Worker, hotkey: string, autoRestart: bool, settings: Fields): (r: Worker)
    requires Fresh(w)
    ensures Fresh(r)
    ensures r.hotkey == hotkey
    ensures autoRestart ==> r.handle.Some? && r.handle.value in r.listeners && r.listeners[r.handle.value] == Listener(hotkey, settings)
    ensures autoRestart ==> r.handle.value !in w.listeners && (w.handle.Some? ==> w.handle.value !in r.listeners)
    ensures autoRestart ==> r.listeners == Unheld(w)[r.handle.value := Listener(hotkey, settings)]
    ensures !autoRestart ==> r.handle == w.handle && r.listeners == w.listeners
  {
    var w' := w.(hotkey := hotkey);
    if autoRestart then Restart(w', settings) else w'
  }

  /** Without a restart the live listener still answers the old hotkey. */
  lemma UpdateWithoutRestartIsStale(w: Worker, hotkey: string, settings: Fields)
    requires Fresh(w)
    requires SingleListener(w)
    requires hotkey != w.hotkey
    ensures var r := UpdateHotkey(w, hotkey, false, settings);
      r.listeners[r.handle.value].hotkey != r.hotkey
  {
  }

  /** The worker object a listener process runs with. `process.start()` hands the new process a
      copy of the worker before `start_event_loop` records the handle, so the copy holds none. */
  function ChildCopy(w: Worker): Worker {
    w.(handle := None)
  }

  /** Stopping from inside a listener acts on that copy and so terminates nothing: every
      listener, the one running included, stays live. */
  lemma ChildStopKeepsListening(w: Worker, pid: nat)
    requires Fresh(w)
    requires pid in w.listeners
    ensures Stop(ChildCopy(w)).listeners == w.listeners
    ensures pid in Stop(ChildCopy(w)).listeners
  {
  }

  /** What the clean-up after a capture is meant to leave: when photos are not kept and the file
      exists, its whole directory is gone; otherwise the tree is untouched. */
  function CleanupEffect(fs: FileTree, path: string, savePhotos: bool): FileTree {
    if !savePhotos && FileExists(fs, path) then fs - {Dirname(path)} else fs
  }

  /** `os.remove(os.path.join(dir, name))` for an entry `os.listdir(dir)` reported. */
  function RemoveEntry(fs: FileTree, dir: string, name: string): FileTree
    requires dir in fs
  {
    fs[dir := fs[dir] - {name}]
  }

  /** The clean-up branch of `screenshot_to_clip`: when photos are not kept and the file exists,
      remove it and its directory; if the directory still holds files, remove each listed file
      and then the directory. */
  method Cleanup(fs: FileTree, path: string, savePhotos: bool) returns (r: FileTree)
    ensures r == CleanupEffect(fs, path, savePhotos)
    ensures !savePhotos ==> !FileExists(r, path)
    ensures !savePhotos && FileExists(fs, path) ==> Dirname(path) !in r
    ensures savePhotos ==> r == fs
  {
    if savePhotos || !FileExists(fs, path) {
      return fs;
    }
    var dir := Dirname(path);
    var removed := RemoveFile(fs, path);
    var cur := removed.value;
    var attempt := Rmdir(cur, dir);
    if attempt.Success? {
      return attempt.value;
    }
    var remaining := cur[dir].Keys;
    while remaining != {}
      invariant dir in cur
      invariant cur[dir].Keys == remaining
      invariant cur - {dir} == fs - {dir}
      decreases remaining
    {
      var name :| name in remaining;
      cur := RemoveEntry(cur, dir, name);
      remaining := remaining - {name};
    }
    assert cur[dir] == map[];
    var last := Rmdir(cur, dir);
    r := last.value;
  }

  /** The OCR engine's answer: the recognised text, the engine is not installed, or any other
      error the call raises (missing language data, an image that could not be read). */
  datatype OcrOutcome = Text(text: string) | TesseractNotFound | OcrFailed

  /** What one hotkey activation leaves behind; `raised` is an exception escaping the handler. */
  datatype Extraction = Extraction(fs: FileTree, clipboard: string, worker: Worker, errorShown: bool, notified: bool, raised: bool)

  /** `screenshot_to_clip` as written, run by listener `pid` with the settings it read at its
      start-up: the image is read, the capture file is cleaned up when photos are not kept, the
      OCR runs on the image read before the clean-up with the joined languages, and its text goes
      to the clipboard. When the engine is missing the error is shown and the listener calls
      `stop_event_loop` on its own copy of the worker, which holds no handle, so no process
      stops. Any other OCR error escapes before the clipboard and the notification. The
      notification is shown exactly when notifications are enabled and the OCR did not raise. */
  method ScreenshotToClipAsWritten(w: Worker, pid: nat, shot: ScreenShot, fs: FileTree, clipboard: string,
                                   ocr: (Result<Image, OsError>, string) -> OcrOutcome)
    returns (x: Extraction)
    requires Fresh(w) && pid in w.listeners
    ensures var f := w.listeners[pid].settings;
      var outcome := ocr(ReadFile(fs, shot.path), LanguageSelector(f.languages));
      && x.fs == CleanupEffect(fs, shot.path, f.savePhotos)
      && x.worker == w
      && (outcome.Text? ==> x.clipboard == outcome.text && !x.errorShown && !x.raised)
      && (outcome.TesseractNotFound? ==> x.clipboard == clipboard && x.errorShown && !x.raised)
      && (outcome.OcrFailed? ==> x.clipboard == clipboard && !x.errorShown && x.raised)
      && x.notified == (f.notifications && !outcome.OcrFailed?)
  {
    var f := w.listeners[pid].settings;
    var img := ReadFile(fs, shot.path);
    var fs' := Cleanup(fs, shot.path, f.savePhotos);
    var outcome := ocr(img, LanguageSelector(f.languages));
    x := Extraction(fs', clipboard, w, false, false, false);
    match outcome {
      case Text(text) =>
        x := x.(clipboard := text);
      case TesseractNotFound =>
        var copy := Stop(ChildCopy(w));
        x := x.(errorShown := true, worker := w.(listeners := copy.listeners));
      case OcrFailed =>
        x := x.(raised := true);
        return;
    }
    x := x.(notified := f.notifications);
  }

  /** `screenshot_to_clip` as evidently intended: the same, except that when the engine is
      missing the listener running the activation really ends while every other listener stays
      as it was, so the hotkey stops answering. */
  method ScreenshotToClip(w: Worker, pid: nat, shot: ScreenShot, fs: FileTree, clipboard: string,
                          ocr: (Result<Image, OsError>, string) -> OcrOutcome)
    returns (x: Extraction)
    requires Fresh(w) && pid in w.listeners
    ensures Fresh(x.worker) && x.worker.hotkey == w.hotkey
    ensures var f := w.listeners[pid].settings;
      var outcome := ocr(ReadFile(fs, shot.path), LanguageSelector(f.languages));
      && x.fs == CleanupEffect(fs, shot.path, f.savePhotos)
      && (outcome.Text? ==> x.clipboard == outcome.text && x.worker == w && !x.errorShown && !x.raised)
      && (outcome.TesseractNotFound? ==> x.clipboard == clipboard && x.errorShown && !x.raised)
      && (outcome.TesseractNotFound? ==> pid !in x.worker.listeners && x.worker.listeners == w.listeners - {pid})
      && (outcome.OcrFailed? ==> x.clipboard == clipboard && x.worker == w && !x.errorShown && x.raised)
      && x.notified == (f.notifications && !outcome.OcrFailed?)
  {
    var f := w.listeners[pid].settings;
    var img := ReadFile(fs, shot.path);
    var fs' := Cleanup(fs, shot.path, f.savePhotos);
    var outcome := ocr(img, LanguageSelector(f.languages));
    x := Extraction(fs', clipboard, w, false, false, false);
    match outcome {
      case Text(text) =>
        x := x.(clipboard := text);
      case TesseractNotFound =>
        x := x.(errorShown := true, worker := w.(listeners := w.listeners - {pid}));
      case OcrFailed =>
        x := x.(raised := true);
        return;
    }
    x := x.(notified := f.notifications);
  }

  // The capture reads the settings store afresh (`Settings()` inside `make_screenshot`), while
  // the clean-up consults the snapshot the listener took when it started. The lemmas below take
  // the two apart: `current` is what the store holds at capture time, `held` the listener's copy.

  /** With photos kept in a chosen folder, and the listener agreeing that they are kept, the
      capture is saved there under its timestamp name and the clean-up leaves it in place. */
  lemma KeptCaptureSurvives(current: Fields, held: Fields, now: DateTime, mainDir: string,
                            events: seq<MouseEvent>, fs: FileTree)
    requires ValidDateTime(now)
    requires current.savePhotos && current.saveFolder.Some?
    requires held.savePhotos == current.savePhotos
    requires MakeScreenshot(current, now, mainDir, events, fs).Success?
    ensures var (shot, fs1) := MakeScreenshot(current, now, mainDir, events, fs).value;
      && shot.path == Join(current.saveFolder.value, TimestampName(now))
      && FileExists(CleanupEffect(fs1, shot.path, held.savePhotos), shot.path)
  {
  }

  /** With photos not kept, and the listener agreeing, the capture goes to the default folder,
      and after the clean-up neither the file nor that folder exists. */
  lemma DiscardedCaptureRemoved(current: Fields, held: Fields, now: DateTime, mainDir: string,
                                events: seq<MouseEvent>, fs: FileTree)
    requires ValidDateTime(now)
    requires !current.savePhotos
    requires held.savePhotos == current.savePhotos
    requires MakeScreenshot(current, now, mainDir, events, fs).Success?
    ensures var (shot, fs1) := MakeScreenshot(current, now, mainDir, events, fs).value;
      var after := CleanupEffect(fs1, shot.path, held.savePhotos);
      && Dirname(shot.path) == DefaultSaveFolder(mainDir)
      && !FileExists(after, shot.path)
      && DefaultSaveFolder(mainDir) !in after
  {
    var (shot, fs1) := MakeScreenshot(current, now, mainDir, events, fs).value;
    DefaultFolderPlain(mainDir);
    ScreenshotPathParts(current.savePhotos, current.saveFolder, None, now, mainDir, fs);
  }

  /** When the listener's snapshot still says photos are discarded but the store now keeps them
      in a chosen folder, the capture is saved into that folder and the clean-up removes the
      folder itself, with every file it held. */
  lemma StaleSnapshotRemovesChosenFolder(current: Fields, held: Fields, now: DateTime, mainDir: string,
                                         events: seq<MouseEvent>, fs: FileTree)
    requires ValidDateTime(now)
    requires current.savePhotos && current.saveFolder.Some? && PlainDir(current.saveFolder.value)
    requires !held.savePhotos
    requires MakeScreenshot(current, now, mainDir, events, fs).Success?
    ensures var (shot, fs1) := MakeScreenshot(current, now, mainDir, events, fs).value;
      var after := CleanupEffect(fs1, shot.path, held.savePhotos);
      && Dirname(shot.path) == current.saveFolder.value
      && current.saveFolder.value !in after
  {
    var (shot, fs1) := MakeScreenshot(current, now, mainDir, events, fs).value;
    ScreenshotPathParts(current.savePhotos, current.saveFolder, None, now, mainDir, fs);
  }

  /** The opposite staleness: the store now discards photos but the listener's snapshot still
      keeps them, so the capture stays behind in the default folder. */
  lemma StaleSnapshotKeepsDiscarded(current: Fields, held: Fields, now: DateTime, mainDir: string,
                                    events: seq<MouseEvent>, fs: FileTree)
    requires ValidDateTime(now)
    requires !current.savePhotos && held.savePhotos
    requires MakeScreenshot(current, now, mainDir, events, fs).Success?
    ensures var (shot, fs1) := MakeScreenshot(current, now, mainDir, events, fs).value;
      && Dirname(shot.path) == DefaultSaveFolder(mainDir)
      && FileExists(CleanupEffect(fs1, shot.path, held.savePhotos), shot.path)
  {
    var (shot, fs1) := MakeScreenshot(current, now, mainDir, events, fs).value;
    DefaultFolderPlain(mainDir);
    ScreenshotPathParts(current.savePhotos, current.saveFolder, None, now, mainDir, fs);
  }
}

=== FILE: files.dfy ===
/** Windows-style paths (`os.path.join`, `dirname`, `basename`) and a flat file tree:
    directories map file names to their contents, which are images. */
module Files {
  import opened Wrappers
  import opened Strings

  /** The path separator (`os.sep` on Windows). */
  const Sep: char := '\\'

  /** File contents: a solid white canvas made by the program, or a screen region grabbed
      with the bounding box (left, top, right, bottom), right and bottom exclusive. */
  datatype Image = WhiteCanvas(w: nat, h: nat) | ScreenGrab(left: int, top: int, right: int, bottom: int) {

    function Width(): int {
      match this
      case WhiteCanvas(w, _) => w
      case ScreenGrab(l, _, r, _) => r - l
    }

    function Height(): int {
      match this
      case WhiteCanvas(_, h) => h
      case ScreenGrab(_, t, _, b) => b - t
    }

    /** Holds no pixel at all. */
    predicate IsEmpty() {
      Width() <= 0 || Height() <= 0
    }
  }

  /** `os.path.join(dir, name)`: an absolute `name` wins, an empty `dir` adds nothing, and a
      separator is inserted only when `dir` does not already end with one. */
  function Join(dir: string, name: string): string {
    if |name| > 0 && name[0] == Sep then name
    else if dir == "" then name
    else if dir[|dir| - 1] == Sep then dir + name
    else dir + [Sep] + name
  }

  /** Index just past the last separator of `p`, 0 when `p` has none. */
  function TailStart(p: string): (i: nat)
    ensures i <= |p|
    ensures i > 0 ==> p[i - 1] == Sep
    ensures forall j :: i <= j < |p| ==> p[j] != Sep
    decreases |p|
  {
    if |p| == 0 then 0
    else if p[|p| - 1] == Sep then |p|
    else TailStart(p[..|p| - 1])
  }

  /** `s.rstrip(sep)`. */
  function StripTrailingSeps(s: string): string
    decreases |s|
  {
    if |s| > 0 && s[|s| - 1] == Sep then StripTrailingSeps(s[..|s| - 1]) else s
  }

  /** `os.path.dirname(p)`: the head before the last separator, trailing separators removed
      unless the head is made of separators only. */
  function Dirname(p: string): string {
    var head := p[..TailStart(p)];
    var stripped := StripTrailingSeps(head);
    if stripped == "" then head else stripped
  }

  /** `os.path.basename(p)`. */
  function Basename(p: string): string {
    p[TailStart(p)..]
  }

  /** A directory path `dirname` gives back unchanged: empty, or not ending in a separator. */
  predicate PlainDir(dir: string) {
    dir == "" || dir[|dir| - 1] != Sep
  }

  lemma {:induction false} TailStartAfter(dir: string, name: string)
    requires Free(name, Sep)
    ensures TailStart(dir + [Sep] + name) == |dir| + 1
    decreases |name|
  {
    var p := dir + [Sep] + name;
    if |name| > 0 {
      assert p[..|p| - 1] == dir + [Sep] + name[..|name| - 1];
      TailStartAfter(dir, name[..|name| - 1]);
    }
  }

  lemma TailStartFree(name: string)
    requires Free(name, Sep)
    ensures TailStart(name) == 0
    decreases |name|
  {
  }

  /** Joining a plain directory with a separator-free file name can be split back into the
      same directory and name. */
  lemma {:induction false} SplitJoinPath(dir: string, name: string)
    requires PlainDir(dir)
    requires Free(name, Sep)
    ensures Dirname(Join(dir, name)) == dir
    ensures Basename(Join(dir, name)) == name
  {
    if dir == "" {
      TailStartFree(name);
    } else {
      var p := dir + [Sep] + name;
      assert Join(dir, name) == p;
      TailStartAfter(dir, name);
      assert p[..|dir| + 1] == dir + [Sep];
      assert (dir + [Sep])[..|dir|] == dir;
      assert StripTrailingSeps(dir + [Sep]) == StripTrailingSeps(dir);
      assert p[|dir| + 1..] == name;
    }
  }

  /** The file system, flat: each directory path maps the names of the plain files it holds
      to their contents. */
  type FileTree = map<string, map<string, Image>>

  /** Why a file-system call raised. */
  datatype OsError = FileNotFound(path: string) | DirectoryNotEmpty(path: string)

  /** `os.path.exists(path)` for a directory. */
  predicate DirExists(fs: FileTree, dir: string) {
    dir in fs
  }

  /** `os.path.exists(path)` for a file. */
  predicate FileExists(fs: FileTree, path: string) {
    Dirname(path) in fs && Basename(path) in fs[Dirname(path)]
  }

  /** `os.mkdir(dir)` of a missing directory. */
  function Mkdir(fs: FileTree, dir: string): FileTree {
    if dir in fs then fs else fs[dir := map[]]
  }

  /** The tree with the file at `path` holding `img`, and nothing else changed. */
  function PutFile(fs: FileTree, path: string, img: Image): FileTree
    requires DirExists(fs, Dirname(path))
  {
    fs[Dirname(path) := fs[Dirname(path)][Basename(path) := img]]
  }

  /** Putting a file adds no directory, makes the file read back as `img`, and leaves every file
      stored under another directory or another name as it was. */
  lemma PutFileFrame(fs: FileTree, path: string, img: Image, other: string)
    requires DirExists(fs, Dirname(path))
    ensures PutFile(fs, path, img).Keys == fs.Keys
    ensures ReadFile(PutFile(fs, path, img), path) == Success(img)
    ensures Dirname(other) != Dirname(path) || Basename(other) != Basename(path) ==>
      ReadFile(PutFile(fs, path, img), other) == ReadFile(fs, other)
  {
  }

  /** Putting a file twice at one path keeps the second image only; putting back the image a
      file already holds changes nothing. */
  lemma PutFileOverwrite(fs: FileTree, path: string, a: Image, b: Image)
    requires DirExists(fs, Dirname(path))
    ensures PutFile(PutFile(fs, path, a), path, b) == PutFile(fs, path, b)
    ensures FileExists(fs, path) ==> PutFile(fs, path, fs[Dirname(path)][Basename(path)]) == fs
  {
    var d, n := Dirname(path), Basename(path);
    assert PutFile(fs, path, a)[d][n := b] == fs[d][n := b];
    if FileExists(fs, path) {
      assert fs[d][n := fs[d][n]] == fs[d];
    }
  }

  /** Writing `img` to `path`: fails when the directory is missing, otherwise creates or
      replaces the file. */
  function WriteFile(fs: FileTree, path: string, img: Image): Result<FileTree, OsError> {
    if !DirExists(fs, Dirname(path)) then Failure(FileNotFound(path))
    else Success(PutFile(fs, path, img))
  }

  /** Opening the image at `path`: fails when there is no such file. */
  function ReadFile(fs: FileTree, path: string): Result<Image, OsError> {
    if FileExists(fs, path) then Success(fs[Dirname(path)][Basename(path)])
    else Failure(FileNotFound(path))
  }

  /** `os.remove(path)`. */
  function RemoveFile(fs: FileTree, path: string): Result<FileTree, OsError> {
    var dir := Dirname(path);
    if !FileExists(fs, path) then Failure(FileNotFound(path))
    else Success(fs[dir := fs[dir] - {Basename(path)}])
  }

  /** `os.rmdir(dir)`: only an existing, empty directory can be removed. */
  function Rmdir(fs: FileTree, dir: string): Result<FileTree, OsError> {
    if dir !in fs then Failure(FileNotFound(dir))
    else if fs[dir] != map[] then Failure(DirectoryNotEmpty(dir))
    else Success(fs - {dir})
  }

  /** A file written and then read at the same path comes back unchanged. */
  lemma WriteThenRead(fs: FileTree, path: string, img: Image)
    requires DirExists(fs, Dirname(path))
    ensures WriteFile(fs, path, img).Success?
    ensures ReadFile(WriteFile(fs, path, img).value, path) == Success(img)
  {
  }
}

=== FILE: strings.dfy ===
/** Text helpers used by the settings, hotkey and OCR-language code: ASCII lower-casing,
    substring search, and joining/splitting on a separator character. */
module Strings {

  function LowerChar(c: char): char {
    if 'A' <= c <= 'Z' then (c as int + 32) as char else c
  }

  /** `str.lower()` restricted to ASCII letters. */
  function Lower(s: string): string {
    seq(|s|, i requires 0 <= i < |s| => LowerChar(s[i]))
  }

  /** Lower-casing twice is the same as lower-casing once. */
  lemma LowerIdempotent(s: string)
    ensures Lower(Lower(s)) == Lower(s)
  {
  }

  /** Lower-casing leaves a string without upper-case ASCII letters as it is. */
  lemma LowerFixes(s: string)
    requires forall i :: 0 <= i < |s| ==> !('A' <= s[i] <= 'Z')
    ensures Lower(s) == s
  {
  }

  /** `sub in s`: `sub` occurs as a contiguous slice of `s` (the empty string occurs everywhere). */
  predicate Contains(s: string, sub: string) {
    exists i :: 0 <= i <= |s| && sub <= s[i..]
  }

  /** A string never contains one holding a character it lacks. */
  lemma Absent(s: string, sub: string, k: nat)
    requires k < |sub|
    requires forall i :: 0 <= i < |s| ==> s[i] != sub[k]
    ensures !Contains(s, sub)
  {
    forall i | 0 <= i <= |s|
      ensures !(sub <= s[i..])
    {
      if i + k < |s| {
        assert s[i..][k] == s[i + k] != sub[k];
      }
    }
  }

  /** A string contains itself. */
  lemma ContainsSelf(s: string)
    ensures Contains(s, s)
  {
    assert s <= s[0..];
  }

  /** Position of the first `c` in `s`, or `|s|` when there is none. */
  function IndexOf(s: string, c: char): (i: nat)
    ensures i <= |s|
    ensures i < |s| ==> s[i] == c
    ensures forall j :: 0 <= j < i ==> s[j] != c
    decreases |s|
  {
    if |s| == 0 then 0
    else if s[0] == c then 0
    else 1 + IndexOf(s[1..], c)
  }

  /** `c` occurs nowhere in `s`. */
  predicate Free(s: string, c: char) {
    forall i :: 0 <= i < |s| ==> s[i] != c
  }

  /** `sep.join(xs)`. */
  function JoinOn(xs: seq<string>, sep: char): string {
    if |xs| == 0 then ""
    else if |xs| == 1 then xs[0]
    else xs[0] + [sep] + JoinOn(xs[1..], sep)
  }

  /** `s.split(sep)`: always at least one piece, and no piece holds `sep`. */
  function SplitOn(s: string, sep: char): (r: seq<string>)
    ensures |r| > 0
    ensures forall k :: 0 <= k < |r| ==> Free(r[k], sep)
    decreases |s|
  {
    var i := IndexOf(s, sep);
    if i == |s| then [s] else [s[..i]] + SplitOn(s[i + 1..], sep)
  }

  /** Splitting a joined non-empty list of separator-free pieces gives the pieces back. */
  lemma {:induction false} SplitJoin(xs: seq<string>, sep: char)
    requires |xs| > 0
    requires forall k :: 0 <= k < |xs| ==> Free(xs[k], sep)
    ensures SplitOn(JoinOn(xs, sep), sep) == xs
  {
    if |xs| == 1 {
      assert IndexOf(xs[0], sep) == |xs[0]|;
    } else {
      var s := JoinOn(xs, sep);
      var x := xs[0];
      var rest := JoinOn(xs[1..], sep);
      assert s == x + [sep] + rest;
      assert s[|x|] == sep;
      assert IndexOf(s, sep) == |x|;
      assert s[..|x|] == x;
      assert s[|x| + 1..] == rest;
      SplitJoin(xs[1..], sep);
      assert [x] + xs[1..] == xs;
    }
  }
}

=== FILE: tray.dfy ===
/** The tray controller: the menu as a function of the settings, and every menu action as a
    transition that updates the settings, the worker and the affected part of the menu. The
    invariant `Good` says the menu on screen is exactly what rendering the current settings
    from scratch would show, and that one listener for the current hotkey is live. */
module Tray {
  import opened Wrappers
  import opened Strings
  import opened Files
  import opened Config
  import opened Utils
  import opened Capture
  import opened Extractor

  // ----- Menu actions and Qt's action-list semantics -----

  /** The actions of the main menu. */
  datatype Action = TitleAct | SeparatorAct | HotkeyAct | NotificationsAct | AutostartAct | SaveAct
                  | SaveFolderAct | LanguagesAct | LogoAct | ThemeAct | QuitAct

  /** The title and the separator that open the menu. */
  const Head: seq<Action> := [TitleAct, SeparatorAct]
  /** The items before the optional save-folder entry, and those after it. */
  const Front: seq<Action> := [HotkeyAct, NotificationsAct, AutostartAct, SaveAct]
  const Back: seq<Action> := [LanguagesAct, LogoAct, ThemeAct, QuitAct]

  /** The list `__set_items_menu` hands to `addActions`, with or without the save-folder entry. */
  function MenuItems(withSaveFolder: bool): seq<Action> {
    Front + (if withSaveFolder then [SaveFolderAct] else []) + Back
  }

  /** The menu with every action of `s` removed (`removeAction`), the rest in order. */
  function Without(menu: seq<Action>, s: set<Action>): (r: seq<Action>)
    ensures |r| <= |menu|
  {
    if menu == [] then []
    else (if menu[0] in s then [] else [menu[0]]) + Without(menu[1..], s)
  }

  /** An action is kept exactly when it was in the menu and is not removed. */
  lemma {:induction false} WithoutMembers(menu: seq<Action>, s: set<Action>, a: Action)
    ensures a in Without(menu, s) <==> a in menu && a !in s
    decreases |menu|
  {
    if menu != [] {
      WithoutMembers(menu[1..], s, a);
      assert menu == [menu[0]] + menu[1..];
    }
  }

  /** `addAction`: an action already in the menu is taken out before it is appended. */
  function AddAction(menu: seq<Action>, a: Action): (r: seq<Action>)
    ensures |r| > 0 && r[|r| - 1] == a && a !in r[..|r| - 1]
    ensures forall b :: b != a ==> (b in r <==> b in menu)
  {
    var r := Without(menu, {a}) + [a];
    WithoutMembers(menu, {a}, a);
    assert r[..|r| - 1] == Without(menu, {a});
    forall b | b != a ensures b in r <==> b in menu {
      WithoutMembers(menu, {a}, b);
    }
    r
  }

  /** `addActions`: `addAction` for each in turn. */
  function AddActions(menu: seq<Action>, xs: seq<Action>): seq<Action>
    decreases |xs|
  {
    if xs == [] then menu else AddActions(AddAction(menu, xs[0]), xs[1..])
  }

  predicate DistinctActions(xs: seq<Action>) {
    forall i, j :: 0 <= i < j < |xs| ==> xs[i] != xs[j]
  }

  function ActionSet(xs: seq<Action>): set<Action> {
    set a | a in xs
  }

  lemma {:induction false} WithoutConcat(m1: seq<Action>, m2: seq<Action>, s: set<Action>)
    ensures Without(m1 + m2, s) == Without(m1, s) + Without(m2, s)
    decreases |m1|
  {
    if m1 == [] {
      assert m1 + m2 == m2;
    } else {
      var head := if m1[0] in s then [] else [m1[0]];
      assert (m1 + m2)[0] == m1[0];
      assert (m1 + m2)[1..] == m1[1..] + m2;
      WithoutConcat(m1[1..], m2, s);
      calc {
        Without(m1 + m2, s);
        head + Without(m1[1..] + m2, s);
        head + (Without(m1[1..], s) + Without(m2, s));
        (head + Without(m1[1..], s)) + Without(m2, s);
      }
    }
  }

  lemma {:induction false} WithoutTwice(m: seq<Action>, a: set<Action>, b: set<Action>)
    ensures Without(Without(m, a), b) == Without(m, a + b)
    decreases |m|
  {
    if m != [] {
      WithoutTwice(m[1..], a, b);
      var head := if m[0] in a then [] else [m[0]];
      WithoutConcat(head, Without(m[1..], a), b);
    }
  }

  /** A menu none of whose actions are removed is left as it is. */
  lemma {:induction false} WithoutNone(m: seq<Action>, s: set<Action>)
    requires forall a :: a in m ==> a !in s
    ensures Without(m, s) == m
    decreases |m|
  {
    if m != [] {
      WithoutNone(m[1..], s);
    }
  }

  /** A menu all of whose actions are removed becomes empty. */
  lemma {:induction false} WithoutAll(m: seq<Action>, s: set<Action>)
    requires forall a :: a in m ==> a in s
    ensures Without(m, s) == []
    decreases |m|
  {
    if m != [] {
      WithoutAll(m[1..], s);
    }
  }

  /** One `addAction` step of a list whose remaining actions differ from the one added. */
  lemma AddOneStep(menu: seq<Action>, x: Action, rest: set<Action>)
    requires x !in rest
    ensures Without(AddAction(menu, x), rest) == Without(menu, {x} + rest) + [x]
  {
    WithoutConcat(Without(menu, {x}), [x], rest);
    WithoutNone([x], rest);
    WithoutTwice(menu, {x}, rest);
  }

  /** The tail of a distinct list is distinct and misses the head. */
  lemma DistinctTail(xs: seq<Action>)
    requires xs != [] && DistinctActions(xs)
    ensures DistinctActions(xs[1..])
    ensures xs[0] !in ActionSet(xs[1..])
    ensures ActionSet(xs) == {xs[0]} + ActionSet(xs[1..])
    ensures xs == [xs[0]] + xs[1..]
  {
    var rest := xs[1..];
    forall j | 0 <= j < |rest| ensures rest[j] != xs[0] {
      assert rest[j] == xs[j + 1];
    }
  }

  /** Adding a list of distinct actions moves each to the end, in list order, behind whatever
      else the menu held. */
  lemma {:induction false} AddActionsMoves(menu: seq<Action>, xs: seq<Action>)
    requires DistinctActions(xs)
    ensures AddActions(menu, xs) == Without(menu, ActionSet(xs)) + xs
    decreases |xs|
  {
    if xs != [] {
      var x := xs[0];
      var rest := xs[1..];
      DistinctTail(xs);
      AddActionsMoves(AddAction(menu, x), rest);
      AddOneStep(menu, x, ActionSet(rest));
      calc {
        AddActions(menu, xs);
        AddActions(AddAction(menu, x), rest);
        Without(AddAction(menu, x), ActionSet(rest)) + rest;
        (Without(menu, ActionSet(xs)) + [x]) + rest;
        Without(menu, ActionSet(xs)) + ([x] + rest);
      }
    } else {
      WithoutNone(menu, ActionSet(xs));
    }
  }

  // ----- Labels, submenus and colours -----

  function UpperChar(c: char): char {
    if 'a' <= c <= 'z' then (c as int - 32) as char else c
  }

  /** `str.capitalize()` on ASCII: first letter upper case, the rest lower case. */
  function Capitalize(s: string): string {
    if s == "" then "" else [UpperChar(s[0])] + Lower(s[1..])
  }

  /** Lower-casing a capitalised lower-case word gives the word back. */
  lemma CapitalizeLowers(s: string)
    requires forall i :: 0 <= i < |s| ==> 'a' <= s[i] <= 'z'
    ensures Lower(Capitalize(s)) == s
  {
    if s != "" {
      var c := Capitalize(s);
      assert |c| == |s|;
      forall i | 0 <= i < |s| ensures Lower(c)[i] == s[i] {
        if i > 0 {
          assert c[i] == Lower(s[1..])[i - 1] == s[i];
        }
      }
    }
  }

  function HotkeyLabel(hotkey: string): string {
    "HotKey " + hotkey
  }

  function NotificationsLabel(enabled: bool): string {
    if enabled then "Disable notifications" else "Enable notifications"
  }

  function AutostartLabel(started: bool): string {
    if started then "Disable autostart" else "Enable autostart"
  }

  function SaveLabel(saving: bool): string {
    if saving then "don`t save screenshots" else "save screenshots"
  }

  /** A submenu entry: the value it selects, its text, and whether it is shown. */
  datatype Choice<T> = Choice(value: T, text: string, visible: bool)

  /** `__add_actions_theme_menu`: one entry per theme, in declaration order; the entry whose
      value equals the current theme is hidden. */
  function ThemeItems(theme: string): (r: seq<Choice<Theme>>)
    ensures |r| == 2 && r[0].value == Dark && r[1].value == Light
    ensures !r[0].visible <==> Dark.Matches(theme)
    ensures !r[1].visible <==> Light.Matches(theme)
  {
    [Choice(Dark, Capitalize(Dark.Value()), Dark.Value() != theme),
     Choice(Light, Capitalize(Light.Value()), Light.Value() != theme)]
  }

  /** `__add_actions_logo_menu`: the same rule over the three logo themes. */
  function LogoItems(logoTheme: string): (r: seq<Choice<LogoTheme>>)
    ensures |r| == 3 && r[0].value == LogoDark && r[1].value == LogoLight && r[2].value == LogoDefault
    ensures !r[0].visible <==> LogoDark.Matches(logoTheme)
    ensures !r[1].visible <==> LogoLight.Matches(logoTheme)
    ensures !r[2].visible <==> LogoDefault.Matches(logoTheme)
  {
    [Choice(LogoDark, Capitalize(LogoDark.Value()), LogoDark.Value() != logoTheme),
     Choice(LogoLight, Capitalize(LogoLight.Value()), LogoLight.Value() != logoTheme),
     Choice(LogoDefault, Capitalize(LogoDefault.Value()), LogoDefault.Value() != logoTheme)]
  }

  function HiddenCount<T>(items: seq<Choice<T>>): nat {
    if items == [] then 0 else (if items[0].visible then 0 else 1) + HiddenCount(items[1..])
  }

  /** With a valid theme stored, exactly one theme entry is hidden. */
  lemma ThemeMenuHidesOne(theme: string)
    requires ParseTheme(theme).Some?
    ensures HiddenCount(ThemeItems(theme)) == 1
  {
    var r := ThemeItems(theme);
    assert r[1..][1..] == [];
    assert HiddenCount(r[1..]) == (if r[1].visible then 0 else 1) + HiddenCount(r[1..][1..]);
  }

  /** With a valid logo theme stored, exactly one logo entry is hidden. */
  lemma LogoMenuHidesOne(logoTheme: string)
    requires ParseLogoTheme(logoTheme).Some?
    ensures HiddenCount(LogoItems(logoTheme)) == 1
  {
    var r := LogoItems(logoTheme);
    assert r[1..][1..][1..] == [];
    assert HiddenCount(r[1..][1..]) == (if r[2].visible then 0 else 1) + HiddenCount(r[1..][1..][1..]);
    assert HiddenCount(r[1..]) == (if r[1].visible then 0 else 1) + HiddenCount(r[1..][1..]);
  }

  /** Every theme entry's text, lower-cased, is read back by `Theme(...)` as its own value. */
  lemma ThemeLabelsParse(theme: string)
    ensures forall i :: 0 <= i < 2 ==> ParseTheme(Lower(ThemeItems(theme)[i].text)) == Some(ThemeItems(theme)[i].value)
  {
    CapitalizeLowers("dark");
    CapitalizeLowers("light");
  }

  /** Every logo entry's text, lower-cased, is read back by `LogoTheme(...)` as its own value. */
  lemma LogoLabelsParse(logoTheme: string)
    ensures forall i :: 0 <= i < 3 ==> ParseLogoTheme(Lower(LogoItems(logoTheme)[i].text)) == Some(LogoItems(logoTheme)[i].value)
  {
    CapitalizeLowers("dark");
    CapitalizeLowers("light");
    CapitalizeLowers("default");
  }

  const LightPalette: seq<string> := ["f2f2f2", "000000", "90c8f6", "6389a9"]
  const DarkPalette: seq<string> := ["292a2d", "e8eaed", "3f4042", "333335"]

  /** `__get_colors`: background, text and selection colours, plus the previous-selection
      colour when asked; the light palette only for the light theme, the dark one otherwise. */
  function GetColors(theme: string, withPrevious: bool): (r: seq<string>)
    ensures theme == "light" && withPrevious ==> r == ["f2f2f2", "000000", "90c8f6", "6389a9"]
    ensures theme == "light" && !withPrevious ==> r == ["f2f2f2", "000000", "90c8f6"]
    ensures theme != "light" && withPrevious ==> r == ["292a2d", "e8eaed", "3f4042", "333335"]
    ensures theme != "light" && !withPrevious ==> r == ["292a2d", "e8eaed", "3f4042"]
  {
    var palette := if Light.Matches(theme) then LightPalette else DarkPalette;
    if withPrevious then palette else palette[..3]
  }

  /** The three-colour answer is the four-colour one without its last entry, and the light
      palette is used exactly for the light theme. */
  lemma ColorsAgree(theme: string)
    ensures GetColors(theme, false) == GetColors(theme, true)[..3]
    ensures GetColors(theme, true)[0] == "f2f2f2" <==> theme == "light"
  {
  }

  /** The background of a language entry: the selection colour when selected. */
  function LabelBackground(theme: string, selected: bool): string {
    var c := GetColors(theme, true);
    if selected then c[2] else c[0]
  }

  /** A selected language is always drawn differently from an unselected one. */
  lemma SelectedLanguageStandsOut(theme: string)
    ensures LabelBackground(theme, true) != LabelBackground(theme, false)
  {
  }

  // ----- Language menu and language selection -----

  /** A language of the catalogue: its display name and its OCR code. */
  datatype Language = Language(name: string, code: string)

  /** An entry of the languages submenu. */
  datatype LangEntry = LangEntry(lang: Language, selected: bool, background: string)

  function EntryFor(l: Language, selected: seq<string>, theme: string): LangEntry {
    LangEntry(l, l.code in selected, LabelBackground(theme, l.code in selected))
  }

  /** `__set_lang_menu`: the catalogue languages the OCR engine has installed, in catalogue order,
      each styled as selected exactly when its code is among the chosen languages. */
  function LangMenu(catalogue: seq<Language>, installed: set<string>, selected: seq<string>, theme: string)
    : seq<LangEntry>
  {
    if catalogue == [] then []
    else
      var l := catalogue[0];
      var rest := LangMenu(catalogue[1..], installed, selected, theme);
      if l.code in installed then [EntryFor(l, selected, theme)] + rest else rest
  }

  /** The languages submenu lists every installed catalogue language and nothing else, each
      entry styled as selected exactly when its code is chosen. */
  lemma {:induction false} LangMenuLists(catalogue: seq<Language>, installed: set<string>, selected: seq<string>, theme: string)
    ensures var r := LangMenu(catalogue, installed, selected, theme);
      forall l :: l in catalogue && l.code in installed ==> EntryFor(l, selected, theme) in r
    ensures var r := LangMenu(catalogue, installed, selected, theme);
      forall e :: e in r ==> e.lang in catalogue && e.lang.code in installed && e == EntryFor(e.lang, selected, theme)
    ensures var r := LangMenu(catalogue, installed, selected, theme);
      forall e :: e in r ==> (e.selected <==> e.lang.code in selected)
  {
    if catalogue != [] {
      LangMenuLists(catalogue[1..], installed, selected, theme);
      assert catalogue == [catalogue[0]] + catalogue[1..];
    }
  }

  /** The position of the first occurrence of `x`. */
  function FirstIndex(xs: seq<string>, x: string): (i: nat)
    requires x in xs
    ensures i < |xs| && xs[i] == x
    ensures forall j :: 0 <= j < i ==> xs[j] != x
  {
    if xs[0] == x then 0 else 1 + FirstIndex(xs[1..], x)
  }

  /** `languages.remove(code)`: drop the first occurrence, keeping everything around it. */
  function RemoveFirst(xs: seq<string>, x: string): (r: seq<string>)
    ensures x in xs ==> r == xs[..FirstIndex(xs, x)] + xs[FirstIndex(xs, x) + 1..]
    ensures x in xs ==> |r| == |xs| - 1 && multiset(r) == multiset(xs) - multiset{x}
    ensures x !in xs ==> r == xs
  {
    if xs == [] then []
    else if xs[0] == x then
      assert FirstIndex(xs, x) == 0;
      assert xs[..0] + xs[1..] == xs[1..];
      assert multiset(xs) == multiset{x} + multiset(xs[1..]) by { assert xs == [x] + xs[1..]; }
      xs[1..]
    else
      var rest := RemoveFirst(xs[1..], x);
      RemoveFirstStep(xs, x, rest);
      [xs[0]] + rest
  }

  /** One step of `RemoveFirst` past a head that differs from the code removed. */
  lemma RemoveFirstStep(xs: seq<string>, x: string, rest: seq<string>)
    requires xs != [] && xs[0] != x
    requires x in xs[1..] ==> rest == xs[1..][..FirstIndex(xs[1..], x)] + xs[1..][FirstIndex(xs[1..], x) + 1..]
    requires x in xs[1..] ==> multiset(rest) == multiset(xs[1..]) - multiset{x}
    requires x !in xs[1..] ==> rest == xs[1..]
    ensures x in xs ==> [xs[0]] + rest == xs[..FirstIndex(xs, x)] + xs[FirstIndex(xs, x) + 1..]
    ensures x in xs ==> multiset([xs[0]] + rest) == multiset(xs) - multiset{x}
    ensures x !in xs ==> [xs[0]] + rest == xs
  {
    assert xs == [xs[0]] + xs[1..];
    if x in xs[1..] {
      RemoveFirstStepSlices(xs, x, rest);
      RemoveFirstStepCount(xs, x, rest);
    }
  }

  lemma RemoveFirstStepSlices(xs: seq<string>, x: string, rest: seq<string>)
    requires xs != [] && xs[0] != x && x in xs[1..]
    requires rest == xs[1..][..FirstIndex(xs[1..], x)] + xs[1..][FirstIndex(xs[1..], x) + 1..]
    ensures [xs[0]] + rest == xs[..FirstIndex(xs, x)] + xs[FirstIndex(xs, x) + 1..]
  {
    var i := FirstIndex(xs[1..], x);
    assert FirstIndex(xs, x) == i + 1;
    assert xs[..i + 1] == [xs[0]] + xs[1..][..i];
    assert xs[i + 2..] == xs[1..][i + 1..];
  }

  lemma RemoveFirstStepCount(xs: seq<string>, x: string, rest: seq<string>)
    requires xs != [] && xs[0] != x && x in xs[1..]
    requires multiset(rest) == multiset(xs[1..]) - multiset{x}
    ensures multiset([xs[0]] + rest) == multiset(xs) - multiset{x}
  {
    assert xs == [xs[0]] + xs[1..];
    assert multiset(xs) == multiset{xs[0]} + multiset(xs[1..]);
    assert multiset([xs[0]] + rest) == multiset{xs[0]} + multiset(rest);
  }

  /** The language toggle of `select_languages`: remove the code when present, else append it. */
  function ToggleCode(languages: seq<string>, code: string): (r: seq<string>)
    ensures code !in languages ==> r == languages + [code]
    ensures code in languages ==> r == languages[..FirstIndex(languages, code)] + languages[FirstIndex(languages, code) + 1..]
  {
    if code in languages then RemoveFirst(languages, code) else languages + [code]
  }

  /** The codes other than `x`, in order. */
  function Others(xs: seq<string>, x: string): seq<string> {
    if xs == [] then [] else (if xs[0] == x then [] else [xs[0]]) + Others(xs[1..], x)
  }

  lemma {:induction false} RemoveFirstKeepsOthers(xs: seq<string>, x: string)
    ensures Others(RemoveFirst(xs, x), x) == Others(xs, x)
  {
    if xs != [] && xs[0] != x {
      RemoveFirstKeepsOthers(xs[1..], x);
      assert ([xs[0]] + RemoveFirst(xs[1..], x))[1..] == RemoveFirst(xs[1..], x);
    } else if xs != [] {
      OthersSkipsHead(xs, x);
    }
  }

  lemma OthersSkipsHead(xs: seq<string>, x: string)
    requires xs != [] && xs[0] == x
    ensures Others(xs, x) == Others(xs[1..], x)
  {
  }

  lemma {:induction false} AppendKeepsOthers(xs: seq<string>, x: string)
    ensures Others(xs + [x], x) == Others(xs, x)
  {
    if xs == [] {
      assert Others([x], x) == [] + Others([], x);
    } else {
      assert (xs + [x])[1..] == xs[1..] + [x];
      AppendKeepsOthers(xs[1..], x);
    }
  }

  /** Toggling a code leaves every other code where it was, relative to the rest. */
  lemma ToggleKeepsOtherOrder(languages: seq<string>, code: string)
    ensures Others(ToggleCode(languages, code), code) == Others(languages, code)
  {
    if code in languages {
      RemoveFirstKeepsOthers(languages, code);
    } else {
      AppendKeepsOthers(languages, code);
    }
  }

  /** Toggling an absent code twice restores the list. */
  lemma ToggleTwiceRestores(languages: seq<string>, code: string)
    requires code !in languages
    ensures ToggleCode(ToggleCode(languages, code), code) == languages
  {
    AppendThenRemove(languages, code);
  }

  /** Appending an absent code and removing it again gives the list back. */
  lemma AppendThenRemove(xs: seq<string>, x: string)
    requires x !in xs
    ensures RemoveFirst(xs + [x], x) == xs
  {
    var ys := xs + [x];
    assert ys[|xs|] == x;
    var i := FirstIndex(ys, x);
    assert i == |xs|;
    assert ys[..i] == xs;
  }

  // ----- The rendered tray and the application state -----

  /** What the environment supplies: the dark-mode flag, the program directory, the executable
      path, the language catalogue and the OCR engine's installed codes. */
  datatype Env = Env(isDark: bool, mainDir: string, exePath: string, catalogue: seq<Language>, installed: set<string>)

  /** Everything the tray shows. */
  datatype View = View(
    menu: seq<Action>,
    hotkeyLabel: string,
    notificationsLabel: string,
    autostartLabel: string,
    saveLabel: string,
    logoItems: seq<Choice<LogoTheme>>,
    themeItems: seq<Choice<Theme>>,
    langItems: seq<LangEntry>,
    icon: string,
    colors: seq<string>)

  /** `__setup_ui`/`__set_items`: the tray drawn from scratch for the given settings. */
  function Render(f: Fields, autostarted: bool, env: Env): View {
    View(
      Head + MenuItems(f.savePhotos),
      HotkeyLabel(f.hotkey),
      NotificationsLabel(f.notifications),
      AutostartLabel(autostarted),
      SaveLabel(f.savePhotos),
      LogoItems(f.logoTheme),
      ThemeItems(f.theme),
      LangMenu(env.catalogue, env.installed, f.languages, f.theme),
      GetLogo(f.logoTheme, f.theme, env.mainDir),
      GetColors(f.theme, false))
  }

  /** What a freshly drawn tray shows: the menu opens with the title and the separator and holds
      each action once, the save-folder entry exactly when photos are saved; each toggle entry
      offers the opposite of the current state, and the hotkey entry ends with the hotkey. */
  lemma RenderShows(f: Fields, autostarted: bool, env: Env)
    ensures var v := Render(f, autostarted, env);
      && |v.menu| > 2 && v.menu[..2] == Head && DistinctActions(v.menu)
      && (SaveFolderAct in v.menu <==> f.savePhotos)
      && |v.hotkeyLabel| >= 7 && v.hotkeyLabel[..7] == "HotKey " && v.hotkeyLabel[7..] == f.hotkey
      && (v.notificationsLabel == "Disable notifications" <==> f.notifications)
      && (v.autostartLabel == "Disable autostart" <==> autostarted)
      && (v.saveLabel == "don`t save screenshots" <==> f.savePhotos)
  {
    RenderedMenu(f.savePhotos);
    assert NotificationsLabel(true) != NotificationsLabel(false) by { assert NotificationsLabel(true)[0] != NotificationsLabel(false)[0]; }
    assert AutostartLabel(true) != AutostartLabel(false) by { assert AutostartLabel(true)[0] != AutostartLabel(false)[0]; }
    assert SaveLabel(true) != SaveLabel(false) by { assert SaveLabel(true)[0] != SaveLabel(false)[0]; }
  }

  /** The rendered menu opens with the head, holds each action once, and shows the save-folder
      entry exactly when asked to. */
  lemma RenderedMenu(withSaveFolder: bool)
    ensures |Head + MenuItems(withSaveFolder)| > 2 && (Head + MenuItems(withSaveFolder))[..2] == Head
    ensures DistinctActions(Head + MenuItems(withSaveFolder))
    ensures SaveFolderAct in Head + MenuItems(withSaveFolder) <==> withSaveFolder
  {
    var items := MenuItems(withSaveFolder);
    MenuItemsDistinct(withSaveFolder);
    assert TitleAct !in items && SeparatorAct !in items;
    DistinctConcat(Head, items);
    assert (Head + items)[..2] == Head;
  }

  /** Two distinct lists with no action in common make a distinct list. */
  lemma DistinctConcat(a: seq<Action>, b: seq<Action>)
    requires DistinctActions(a) && DistinctActions(b)
    requires forall x :: x in a ==> x !in b
    ensures DistinctActions(a + b)
  {
    var c := a + b;
    forall i, j | 0 <= i < j < |c| ensures c[i] != c[j] {
      if j < |a| {
        assert c[i] == a[i] && c[j] == a[j];
      } else if i >= |a| {
        assert c[i] == b[i - |a|] && c[j] == b[j - |a|];
      } else {
        assert c[i] == a[i] && c[j] == b[j - |a|];
        assert a[i] in a && b[j - |a|] in b;
      }
    }
  }

  /** The running application: settings, the autostart registry, the worker, what is shown. */
  datatype App = App(settings: Settings, registry: Store, worker: Worker, view: View)

  /** The settings the held listener read at its start-up. */
  function HeldSettings(w: Worker): Fields
    requires SingleListener(w)
  {
    w.listeners[w.handle.value].settings
  }

  /** A single listener is live, for the stored hotkey, and it runs the OCR with the stored
      languages. */
  predicate Listening(w: Worker, f: Fields) {
    && Fresh(w)
    && SingleListener(w)
    && w.hotkey == f.hotkey
    && HeldSettings(w).languages == f.languages
  }

  /** The tray agrees with the settings, and the worker listens as they say. */
  predicate Good(app: App, env: Env) {
    && Synced(app.settings, env.isDark)
    && app.view == Render(app.settings.fields, IsAutoStarted(app.registry), env)
    && Listening(app.worker, app.settings.fields)
  }

  /** Restarting a worker with a single live listener leaves a single live listener again: a new
      process, for the worker's hotkey, running with the settings it read. */
  lemma RestartListens(w: Worker, read: Fields)
    requires Fresh(w) && NoOrphans(w)
    ensures var r := Restart(w, read);
      && Fresh(r) && SingleListener(r) && r.hotkey == w.hotkey
      && r.handle.value !in w.listeners && HeldSettings(r) == read
  {
    RestartLeavesSingleListener(w, read);
  }

  /** A handler that stores its settings, shows their render and restarts a worker whose every
      listener is held, on the stored hotkey, leaves the tray consistent, with the new listener
      holding what it read. */
  lemma RestartedGood(settings: Settings, registry: Store, view: View, w: Worker, read: Fields, env: Env)
    requires Synced(settings, env.isDark)
    requires view == Render(settings.fields, IsAutoStarted(registry), env)
    requires Fresh(w) && NoOrphans(w) && w.hotkey == settings.fields.hotkey
    requires read.languages == settings.fields.languages
    ensures Good(App(settings, registry, Restart(w, read), view), env)
    ensures HeldSettings(Restart(w, read)) == read
  {
    RestartListens(w, read);
  }

  /** `TrayApp.__init__`: read the settings, build the menu (the three submenus are added when
      created and moved behind the plain items by `addActions`), then start the worker. */
  function Init(store: Store, registry: Store, env: Env, firstPid: nat): (r: App)
    ensures Good(r, env)
    ensures r.settings.store == store
    ensures r.view.menu == Head + MenuItems(r.settings.fields.savePhotos)
    ensures HeldSettings(r.worker) == r.settings.fields
    ensures r.registry == registry
  {
    var settings := Open(store, env.isDark);
    var f := settings.fields;
    var menu := AddActions(Head + [LanguagesAct, LogoAct, ThemeAct], MenuItems(f.savePhotos));
    InitMenu(f.savePhotos);
    var view := Render(f, IsAutoStarted(registry), env).(menu := menu);
    var read := Load(store, env.isDark);
    var worker := Start(Worker(f.hotkey, None, map[], firstPid), read);
    FirstStartListens(f.hotkey, firstPid, read);
    App(settings, registry, worker, view)
  }

  /** The three submenus added on creation end up behind the plain items once `addActions`
      has run. */
  lemma InitMenu(withSaveFolder: bool)
    ensures AddActions(Head + [LanguagesAct, LogoAct, ThemeAct], MenuItems(withSaveFolder)) == Head + MenuItems(withSaveFolder)
  {
    var items := MenuItems(withSaveFolder);
    MenuItemsDistinct(withSaveFolder);
    assert forall a :: a in [LanguagesAct, LogoAct, ThemeAct] ==> a in items;
    ReAdd(Head, [LanguagesAct, LogoAct, ThemeAct], items);
  }

  /** The first start leaves a single listener, running with the settings it read. */
  lemma FirstStartListens(hotkey: string, firstPid: nat, read: Fields)
    ensures var w := Start(Worker(hotkey, None, map[], firstPid), read);
      Fresh(w) && SingleListener(w) && w.hotkey == hotkey && HeldSettings(w) == read
  {
  }

  /** `change_hotkey` with the recorded hotkey: store it, relabel the entry, and restart the
      worker on it. */
  function ChangeHotkey(app: App, env: Env, hotkey: string): (r: App)
    requires Good(app, env)
    ensures Good(r, env)
    ensures r.settings.fields == app.settings.fields.(hotkey := hotkey)
    ensures r.view.hotkeyLabel == "HotKey " + hotkey
    ensures r.registry == app.registry
    ensures r.worker.handle.value !in app.worker.listeners
    ensures r.worker.listeners[r.worker.handle.value] == Listener(hotkey, r.settings.fields)
  {
    var settings := SetValues(app.settings, NoChange.(hotkey := Some(hotkey)), env.isDark);
    assert settings.fields == app.settings.fields.(hotkey := hotkey);
    var view := app.view.(hotkeyLabel := HotkeyLabel(settings.fields.hotkey));
    var read := Load(settings.store, env.isDark);
    var worker := UpdateHotkey(app.worker, settings.fields.hotkey, true, read);
    assert worker == Restart(app.worker.(hotkey := settings.fields.hotkey), read);
    RestartedGood(settings, app.registry, view, app.worker.(hotkey := settings.fields.hotkey), read, env);
    App(settings, app.registry, worker, view)
  }

  /** `change_hotkey` end to end: record the combination from the keyboard, then store it. The
      stored hotkey names exactly the keys held before the first release, each once. */
  method RecordHotkey(app: App, env: Env, events: seq<KeyEvent>) returns (r: App, order: seq<string>)
    requires Good(app, env)
    ensures Good(r, env)
    ensures r.registry == app.registry
    ensures r.settings.fields.hotkey == JoinOn(order, '+')
    ensures Distinct(order) && forall k :: k in order <==> k in HotkeyTokens(events)
    ensures r.settings.fields == app.settings.fields.(hotkey := JoinOn(order, '+'))
  {
    var hotkey;
    hotkey, order := GetHotkey(events);
    r := ChangeHotkey(app, env, hotkey);
  }

  /** `select_folder`: an empty selection keeps the folder, any other replaces it; nothing else
      changes. */
  function SelectFolder(app: App, env: Env, chosen: string): (r: App)
    requires Good(app, env)
    ensures Good(r, env)
    ensures r.settings.fields == app.settings.fields.(saveFolder := if chosen != "" then Some(chosen) else app.settings.fields.saveFolder)
    ensures r.view == app.view && r.worker == app.worker
    ensures r.registry == app.registry
  {
    var folder := if |chosen| > 0 then Some(chosen) else app.settings.fields.saveFolder;
    var settings := SetValues(app.settings, NoChange.(saveFolder := folder), env.isDark);
    app.(settings := settings)
  }

  /** `select_languages` for the clicked catalogue language: toggle its code, store the list,
      restart the worker, rebuild the languages submenu. */
  function SelectLanguage(app: App, env: Env, lang: Language): (r: App)
    requires Good(app, env)
    ensures Good(r, env)
    ensures r.registry == app.registry
    ensures r.settings.fields == app.settings.fields.(languages := ToggleCode(app.settings.fields.languages, lang.code))
    ensures lang.code !in app.settings.fields.languages ==> lang.code in r.settings.fields.languages
    ensures r.worker.handle.value !in app.worker.listeners
    ensures HeldSettings(r.worker) == r.settings.fields
  {
    var f := app.settings.fields;
    var settings := SetValues(app.settings, NoChange.(languages := Some(ToggleCode(f.languages, lang.code))), env.isDark);
    var read := Load(settings.store, env.isDark);
    var view := app.view.(langItems := LangMenu(env.catalogue, env.installed, settings.fields.languages, settings.fields.theme));
    RestartedGood(settings, app.registry, view, app.worker, read, env);
    App(settings, app.registry, Restart(app.worker, read), view)
  }

  /** `toggle_notifications`: relabel from the old value, restart the worker, store the flipped
      flag. Only that flag changes among the settings. The new listener reads the store while it
      starts, which races with the write that follows the restart: `readsFirst` says whether its
      read comes before the write, in which case it keeps the old flag. */
  function ToggleNotifications(app: App, env: Env, readsFirst: bool): (r: App)
    requires Good(app, env)
    ensures Good(r, env)
    ensures r.registry == app.registry
    ensures r.settings.fields == app.settings.fields.(notifications := !app.settings.fields.notifications)
    ensures r.view.notificationsLabel == "Disable notifications" <==> r.settings.fields.notifications
    ensures r.worker.handle.value !in app.worker.listeners
    ensures HeldSettings(r.worker) == if readsFirst then app.settings.fields else r.settings.fields
  {
    var was := app.settings.fields.notifications;
    var text := if was then "Enable notifications" else "Disable notifications";
    var settings := SetValues(app.settings, NoChange.(notifications := Some(!was)), env.isDark);
    var read := Load(if readsFirst then app.settings.store else settings.store, env.isDark);
    var view := app.view.(notificationsLabel := text);
    RestartedGood(settings, app.registry, view, app.worker, read, env);
    App(settings, app.registry, Restart(app.worker, read), view)
  }

  /** `toggle_autostart`: flip the registration and its label; the settings store is not touched. */
  function ToggleAutostart(app: App, env: Env): (r: App)
    requires Good(app, env)
    ensures Good(r, env)
    ensures r.settings == app.settings && r.worker == app.worker
    ensures IsAutoStarted(r.registry) == !IsAutoStarted(app.registry)
  {
    var started := IsAutoStarted(app.registry);
    var text := if started then "Enable autostart" else "Disable autostart";
    AutoStartObserved(app.registry, !started, env.exePath);
    app.(registry := AutoStart(app.registry, !started, env.exePath), view := app.view.(autostartLabel := text))
  }

  lemma MenuItemsDistinct(withSaveFolder: bool)
    ensures DistinctActions(MenuItems(withSaveFolder))
  {
  }

  /** Removing an action that occurs once, between `before` and `after`, closes the gap. */
  lemma {:induction false} RemoveGap(before: seq<Action>, x: Action, after: seq<Action>)
    requires x !in before && x !in after
    ensures Without(before + [x] + after, {x}) == before + after
  {
    var s := {x};
    WithoutConcat(before + [x], after, s);
    WithoutConcat(before, [x], s);
    WithoutNone(before, s);
    WithoutNone(after, s);
    WithoutAll([x], s);
    calc {
      Without(before + [x] + after, s);
      Without(before + [x], s) + Without(after, s);
      (Without(before, s) + Without([x], s)) + after;
      (before + []) + after;
    }
    assert before + [] == before;
  }

  /** Adding a distinct list to a menu made of a fixed head and a part of that list leaves the
      head followed by the list. */
  lemma {:induction false} ReAdd(head: seq<Action>, part: seq<Action>, xs: seq<Action>)
    requires DistinctActions(xs)
    requires forall a :: a in head ==> a !in xs
    requires forall a :: a in part ==> a in xs
    ensures AddActions(head + part, xs) == head + xs
  {
    var s := ActionSet(xs);
    AddActionsMoves(head + part, xs);
    WithoutConcat(head, part, s);
    WithoutNone(head, s);
    WithoutAll(part, s);
  }

  /** Removing the save-folder entry from the full menu gives the short one. */
  lemma ShortenMenu()
    ensures Without(Head + MenuItems(true), {SaveFolderAct}) == Head + MenuItems(false)
  {
    assert Head + MenuItems(true) == (Head + Front) + [SaveFolderAct] + Back;
    assert Head + MenuItems(false) == (Head + Front) + Back;
    RemoveGap(Head + Front, SaveFolderAct, Back);
  }

  /** Re-adding the full item list to the short menu gives the full one. */
  lemma ExtendMenu()
    ensures AddActions(Head + MenuItems(false), MenuItems(true)) == Head + MenuItems(true)
  {
    MenuItemsDistinct(true);
    ReAdd(Head, MenuItems(false), MenuItems(true));
  }

  /** Toggling the save flag on a freshly rendered menu gives the menu a fresh render would build. */
  lemma SaveToggleMenu(was: bool)
    ensures (if was then Without(Head + MenuItems(true), {SaveFolderAct})
             else AddActions(Head + MenuItems(false), MenuItems(true)))
            == Head + MenuItems(!was)
  {
    if was { ShortenMenu(); } else { ExtendMenu(); }
  }

  /** `toggle_save_photos`: relabel, remove the save-folder entry or re-add all items with it,
      restart the worker, store the flipped flag. Only that flag changes among the settings. As
      for notifications, `readsFirst` says whether the new listener reads the store before the
      write that follows the restart. */
  function ToggleSavePhotos(app: App, env: Env, readsFirst: bool): (r: App)
    requires Good(app, env)
    ensures Good(r, env)
    ensures r.registry == app.registry
    ensures r.settings.fields == app.settings.fields.(savePhotos := !app.settings.fields.savePhotos)
    ensures r.worker.handle.value !in app.worker.listeners
    ensures HeldSettings(r.worker) == if readsFirst then app.settings.fields else r.settings.fields
  {
    var settings := SavePhotosFlipped(app.settings, env.isDark);
    SaveToggleRestart(app, env, Load(if readsFirst then app.settings.store else settings.store, env.isDark))
  }

  /** The store write of `toggle_save_photos`: the flipped flag, nothing else. */
  function SavePhotosFlipped(s: Settings, isDark: bool): Settings {
    SetValues(s, NoChange.(savePhotos := Some(!s.fields.savePhotos)), isDark)
  }

  /** What `toggle_save_photos` does once the new listener has read `read`: relabel, update the
      menu, restart the worker, store the flipped flag. */
  function SaveToggleRestart(app: App, env: Env, read: Fields): (r: App)
    requires Good(app, env)
    requires read.languages == app.settings.fields.languages
    ensures Good(r, env)
    ensures r.registry == app.registry
    ensures r.settings == SavePhotosFlipped(app.settings, env.isDark)
    ensures r.settings.fields == app.settings.fields.(savePhotos := !app.settings.fields.savePhotos)
    ensures r.worker.handle.value !in app.worker.listeners
    ensures HeldSettings(r.worker) == read
  {
    var settings := SavePhotosFlipped(app.settings, env.isDark);
    var view := SaveToggledView(app.view, app.settings.fields, settings.fields, IsAutoStarted(app.registry), env);
    RestartedGood(settings, app.registry, view, app.worker, read, env);
    App(settings, app.registry, Restart(app.worker, read), view)
  }

  /** Turning saving on with a folder chosen, when the new listener reads the store before the
      write: the next capture is made with the stored settings and lands in the chosen folder,
      and the listener's clean-up, still holding the old flag, removes that folder. */
  lemma StaleSaveToggleRemovesChosenFolder(app: App, env: Env, now: DateTime, mainDir: string,
                                           events: seq<MouseEvent>, fs: FileTree)
    requires Good(app, env)
    requires !app.settings.fields.savePhotos
    requires app.settings.fields.saveFolder.Some? && PlainDir(app.settings.fields.saveFolder.value)
    requires ValidDateTime(now)
    ensures var r := ToggleSavePhotos(app, env, true);
      var folder := app.settings.fields.saveFolder.value;
      var shot := MakeScreenshot(r.settings.fields, now, mainDir, events, fs);
      shot.Success? ==>
        && Dirname(shot.value.0.path) == folder
        && folder !in CleanupEffect(shot.value.1, shot.value.0.path, HeldSettings(r.worker).savePhotos)
  {
    var r := ToggleSavePhotos(app, env, true);
    if MakeScreenshot(r.settings.fields, now, mainDir, events, fs).Success? {
      StaleSnapshotRemovesChosenFolder(r.settings.fields, HeldSettings(r.worker), now, mainDir, events, fs);
    }
  }

  /** `toggle_save_photos` with the store written before the worker restarts, as
      `select_language` does: the new listener then always reads the flipped flag. */
  function ToggleSavePhotosWriteFirst(app: App, env: Env): (r: App)
    requires Good(app, env)
    ensures Good(r, env)
    ensures r.registry == app.registry
    ensures r.settings.fields == app.settings.fields.(savePhotos := !app.settings.fields.savePhotos)
    ensures r.worker.handle.value !in app.worker.listeners
    ensures HeldSettings(r.worker) == r.settings.fields
  {
    var settings := SavePhotosFlipped(app.settings, env.isDark);
    SaveToggleRestart(app, env, Load(settings.store, env.isDark))
  }

  /** After the write-first toggle, the capture and the clean-up agree: a capture kept in a chosen
      folder survives, and a discarded one is removed with the default folder. */
  lemma WriteFirstCaptureConsistent(app: App, env: Env, now: DateTime, mainDir: string,
                                    events: seq<MouseEvent>, fs: FileTree)
    requires Good(app, env)
    requires ValidDateTime(now)
    ensures var r := ToggleSavePhotosWriteFirst(app, env);
      var f := r.settings.fields;
      var shot := MakeScreenshot(f, now, mainDir, events, fs);
      shot.Success? ==>
        var after := CleanupEffect(shot.value.1, shot.value.0.path, HeldSettings(r.worker).savePhotos);
        && (f.savePhotos && f.saveFolder.Some? ==> FileExists(after, shot.value.0.path))
        && (!f.savePhotos ==> !FileExists(after, shot.value.0.path) && DefaultSaveFolder(mainDir) !in after)
  {
    var r := ToggleSavePhotosWriteFirst(app, env);
    var f := r.settings.fields;
    if MakeScreenshot(f, now, mainDir, events, fs).Success? {
      if f.savePhotos && f.saveFolder.Some? {
        KeptCaptureSurvives(f, HeldSettings(r.worker), now, mainDir, events, fs);
      } else if !f.savePhotos {
        DiscardedCaptureRemoved(f, HeldSettings(r.worker), now, mainDir, events, fs);
      }
    }
  }

  /** After the save toggle the menu shows the save-folder entry, and the entry offers to stop
      saving, exactly when photos are now saved. */
  lemma SavePhotosShown(app: App, env: Env, readsFirst: bool)
    requires Good(app, env)
    ensures var r := ToggleSavePhotos(app, env, readsFirst);
      && (SaveFolderAct in r.view.menu <==> r.settings.fields.savePhotos)
      && (r.view.saveLabel == "don`t save screenshots" <==> r.settings.fields.savePhotos)
  {
    var r := ToggleSavePhotos(app, env, readsFirst);
    RenderShows(r.settings.fields, IsAutoStarted(r.registry), env);
  }

  /** The view part of `toggle_save_photos`: relabel the entry, then remove the save-folder entry
      or re-add every item with it (`__set_items_menu` lists the entry once it exists, which is
      when the flag was off, so the list is `MenuItems(!f.savePhotos)` in that branch). */
  function SaveToggledView(v: View, f: Fields, f': Fields, autostarted: bool, env: Env): (r: View)
    requires v == Render(f, autostarted, env)
    requires f' == f.(savePhotos := !f.savePhotos)
    ensures r == Render(f', autostarted, env)
  {
    SaveToggleView(v, f, f', autostarted, env);
    v.(saveLabel := if f.savePhotos then "save screenshots" else "don`t save screenshots",
       menu := if f.savePhotos then Without(v.menu, {SaveFolderAct}) else AddActions(v.menu, MenuItems(!f.savePhotos)))
  }

  /** The save toggle's piecemeal update of a rendered tray is the render of the flipped flag. */
  lemma SaveToggleView(v: View, f: Fields, f': Fields, autostarted: bool, env: Env)
    requires v == Render(f, autostarted, env)
    requires f' == f.(savePhotos := !f.savePhotos)
    ensures v.(saveLabel := if f.savePhotos then "save screenshots" else "don`t save screenshots",
               menu := if f.savePhotos then Without(v.menu, {SaveFolderAct}) else AddActions(v.menu, MenuItems(!f.savePhotos)))
            == Render(f', autostarted, env)
    ensures SaveFolderAct in Render(f', autostarted, env).menu <==> f'.savePhotos
    ensures Render(f', autostarted, env).saveLabel == "don`t save screenshots" <==> f'.savePhotos
  {
    SaveToggleMenu(f.savePhotos);
    assert SaveLabel(true) != SaveLabel(false) by { assert SaveLabel(true)[0] != SaveLabel(false)[0]; }
    assert SaveFolderAct in MenuItems(true);
    WithoutMembers(Head + MenuItems(true), {SaveFolderAct}, SaveFolderAct);
  }

  /** `toggle_logo_theme` for a clicked entry text: `LogoTheme(text.lower())` (an unknown text
      raises, `None` here), store it, rebuild the logo submenu and the icon. */
  function ToggleLogoTheme(app: App, env: Env, clicked: string): (r: Option<App>)
    requires Good(app, env)
    ensures r.Some? <==> ParseLogoTheme(Lower(clicked)).Some?
    ensures r.Some? ==> Good(r.value, env)
    ensures r.Some? ==> r.value.registry == app.registry && r.value.worker == app.worker
    ensures r.Some? ==> r.value.settings.fields == app.settings.fields.(logoTheme := Lower(clicked))
  {
    match ParseLogoTheme(Lower(clicked))
    case None => None
    case Some(t) =>
      var settings := SetValues(app.settings, NoChange.(logoTheme := Some(t)), env.isDark);
      var f := settings.fields;
      LogoThemeMatchesIffParses(t, Lower(clicked));
      Some(app.(settings := settings,
                view := app.view.(logoItems := LogoItems(f.logoTheme), icon := GetLogo(f.logoTheme, f.theme, env.mainDir))))
  }

  /** `toggle_theme` for a clicked entry text: store the theme, then rebuild the theme submenu,
      the colours, the icon and the languages submenu, all of which depend on it. */
  function ToggleTheme(app: App, env: Env, clicked: string): (r: Option<App>)
    requires Good(app, env)
    ensures r.Some? <==> ParseTheme(Lower(clicked)).Some?
    ensures r.Some? ==> Good(r.value, env)
    ensures r.Some? ==> r.value.registry == app.registry && r.value.worker == app.worker
    ensures r.Some? ==> r.value.settings.fields == app.settings.fields.(theme := Lower(clicked))
  {
    match ParseTheme(Lower(clicked))
    case None => None
    case Some(t) =>
      var settings := SetValues(app.settings, NoChange.(theme := Some(t)), env.isDark);
      ThemeMatchesIffParses(t, Lower(clicked));
      var f := settings.fields;
      Some(app.(settings := settings,
                view := app.view.(themeItems := ThemeItems(f.theme),
                                  colors := GetColors(f.theme, false),
                                  icon := GetLogo(f.logoTheme, f.theme, env.mainDir),
                                  langItems := LangMenu(env.catalogue, env.installed, f.languages, f.theme))))
  }

  /** `quit_application`: stop the worker; no listener is left. */
  function Quit(app: App, env: Env): (r: App)
    requires Good(app, env)
    ensures r.worker.listeners == map[] && r.worker.handle.None?
    ensures r.settings == app.settings
    ensures r.registry == app.registry
  {
    app.(worker := Stop(app.worker))
  }
}

=== FILE: utils.dfy ===
/** The pure helpers: the default save folder, the logo decision table, and the hotkey
    recorder's key-name normalisation. */
module Utils {
  import opened Strings
  import opened Files
  import opened Config

  /** Name of the default capture folder below the program directory. */
  const DefaultFolderName: string := "testpic"

  /** `get_default_save_folder()`, with the program directory as a parameter. */
  function DefaultSaveFolder(mainDir: string): string {
    Join(mainDir, DefaultFolderName)
  }

  /** The default folder is the "testpic" entry directly inside the program directory. */
  lemma DefaultSaveFolderInMainDir(mainDir: string)
    requires PlainDir(mainDir)
    ensures Dirname(DefaultSaveFolder(mainDir)) == mainDir
    ensures Basename(DefaultSaveFolder(mainDir)) == "testpic"
  {
    SplitJoinPath(mainDir, DefaultFolderName);
  }

  const LightLogo: string := "res\\logo_light.svg"
  const DarkLogo: string := "res\\logo.svg"

  /** `get_logo()`: the light logo exactly when the logo theme is "light", or it is "default"
      and the display theme is "light"; the dark logo in every other case. */
  function GetLogo(logoTheme: string, theme: string, mainDir: string): (r: string)
    ensures logoTheme == "light" || (logoTheme == "default" && theme == "light") ==> r == Join(mainDir, LightLogo)
    ensures !(logoTheme == "light" || (logoTheme == "default" && theme == "light")) ==> r == Join(mainDir, DarkLogo)
    ensures PlainDir(mainDir) ==> Join(mainDir, LightLogo) != Join(mainDir, DarkLogo)
  {
    assert LightLogo != DarkLogo by { assert LightLogo[8] != DarkLogo[8]; }
    assert LightLogo[0] == 'r' && DarkLogo[0] == 'r';
    assert PlainDir(mainDir) ==> Join(mainDir, LightLogo) != Join(mainDir, DarkLogo) by {
      if PlainDir(mainDir) {
        JoinDistinct(mainDir, LightLogo, DarkLogo);
      }
    }
    if LogoDefault.Matches(logoTheme) then
      if Light.Matches(theme) then Join(mainDir, LightLogo) else Join(mainDir, DarkLogo)
    else if LogoLight.Matches(logoTheme) then Join(mainDir, LightLogo)
    else Join(mainDir, DarkLogo)
  }

  /** Two relative names joined to the same directory stay different. */
  lemma JoinDistinct(dir: string, a: string, b: string)
    requires PlainDir(dir)
    requires |a| > 0 && a[0] != Sep && |b| > 0 && b[0] != Sep
    requires a != b
    ensures Join(dir, a) != Join(dir, b)
  {
    if dir != "" {
      var pa := dir + [Sep] + a;
      var pb := dir + [Sep] + b;
      assert pa[|dir| + 1..] == a;
      assert pb[|dir| + 1..] == b;
    }
  }

  /** A raw keyboard event as `keyboard.read_event` reports it. */
  datatype KeyEvent = KeyDown(name: string) | KeyUp(name: string)

  /** The canonical key names modifier variants collapse to. */
  const Canonical: set<string> := {"windows", "ctrl", "alt", "shift", "capslock"}

  /** One recorded key name: lower-cased, then collapsed by the first canonical fragment it
      contains, checked in the order windows, ctrl, alt, shift, caps lock. The result is
      canonical or the lower-cased name itself; it is kept lower-cased exactly when it holds no
      fragment, and a name holding "windows" is always "windows", whatever else it holds. */
  function NormaliseKey(name: string): (r: string)
    ensures r in Canonical || r == Lower(name)
    ensures Contains(Lower(name), "windows") ==> r == "windows"
    ensures r !in Canonical ==>
      !Contains(Lower(name), "windows") && !Contains(Lower(name), "ctrl") && !Contains(Lower(name), "alt")
      && !Contains(Lower(name), "shift") && !Contains(Lower(name), "caps lock")
  {
    var n := Lower(name);
    if Contains(n, "windows") then "windows"
    else if Contains(n, "ctrl") then "ctrl"
    else if Contains(n, "alt") then "alt"
    else if Contains(n, "shift") then "shift"
    else if Contains(n, "caps lock") then "capslock"
    else n
  }

  /** The collapse is decided by the first fragment the lower-cased name holds, in the order
      windows, ctrl, alt, shift, caps lock; a name holding none of them is kept lower-cased. */
  lemma NormaliseKeyFirstMatch(name: string)
    ensures var n, r := Lower(name), NormaliseKey(name);
      && (Contains(n, "windows") ==> r == "windows")
      && (!Contains(n, "windows") && Contains(n, "ctrl") ==> r == "ctrl")
      && (!Contains(n, "windows") && !Contains(n, "ctrl") && Contains(n, "alt") ==> r == "alt")
      && (!Contains(n, "windows") && !Contains(n, "ctrl") && !Contains(n, "alt") && Contains(n, "shift")
          ==> r == "shift")
      && ((!Contains(n, "windows") && !Contains(n, "ctrl") && !Contains(n, "alt") && !Contains(n, "shift")
           && Contains(n, "caps lock")) ==> r == "capslock")
      && ((!Contains(n, "windows") && !Contains(n, "ctrl") && !Contains(n, "alt") && !Contains(n, "shift")
           && !Contains(n, "caps lock")) ==> r == n)
  {
  }

  /** Normalising a recorded name again changes nothing: every canonical name collapses to
      itself. */
  lemma NormaliseKeyIdempotent(name: string)
    ensures NormaliseKey(NormaliseKey(name)) == NormaliseKey(name)
  {
    var n := NormaliseKey(name);
    if n == "windows" {
      CanonicalFixed("windows");
    } else if n == "ctrl" {
      CanonicalFixed("ctrl");
    } else if n == "alt" {
      CanonicalFixed("alt");
    } else if n == "shift" {
      CanonicalFixed("shift");
    } else if n == "capslock" {
      CanonicalFixed("capslock");
    } else {
      LowerIdempotent(name);
    }
  }

  /** Each canonical name normalises to itself. */
  lemma CanonicalFixed(c: string)
    requires c in Canonical
    ensures NormaliseKey(c) == c
  {
    if c == "windows" {
      WindowsFixed();
    } else if c == "ctrl" {
      CtrlFixed();
    } else if c == "alt" {
      AltFixed();
    } else if c == "shift" {
      ShiftFixed();
    } else {
      CapslockFixed();
    }
  }

  lemma WindowsFixed()
    ensures NormaliseKey("windows") == "windows"
  {
    LowerFixes("windows");
    ContainsSelf("windows");
  }

  lemma CtrlFixed()
    ensures NormaliseKey("ctrl") == "ctrl"
  {
    LowerFixes("ctrl");
    Absent("ctrl", "windows", 0);
    ContainsSelf("ctrl");
  }

  lemma AltFixed()
    ensures NormaliseKey("alt") == "alt"
  {
  }

  lemma ShiftFixed()
    ensures NormaliseKey("shift") == "shift"
  {
    LowerFixes("shift");
    Absent("shift", "windows", 0);
    Absent("shift", "ctrl", 0);
    Absent("shift", "alt", 0);
    ContainsSelf("shift");
  }

  lemma CapslockFixed()
    ensures NormaliseKey("capslock") == "capslock"
  {
    LowerFixes("capslock");
    Absent("capslock", "windows", 0);
    Absent("capslock", "ctrl", 1);
    Absent("capslock", "alt", 2);
    Absent("capslock", "shift", 1);
    Absent("capslock", "caps lock", 4);
  }

  /** Names of the key-down events before the first key-up, normalised; later events are never
      read. */
  function Pressed(events: seq<KeyEvent>): (r: seq<string>)
    ensures |r| <= |events|
    ensures forall i :: 0 <= i < |r| ==> events[i].KeyDown? && r[i] == NormaliseKey(events[i].name)
    ensures |r| < |events| ==> events[|r|].KeyUp?
  {
    if |events| == 0 || events[0].KeyUp? then []
    else [NormaliseKey(events[0].name)] + Pressed(events[1..])
  }

  /** The tokens of the recorded hotkey: the set of pressed names. */
  function HotkeyTokens(events: seq<KeyEvent>): set<string> {
    set k | k in Pressed(events)
  }

  /** Key-downs only. */
  predicate AllDown(events: seq<KeyEvent>) {
    forall i :: 0 <= i < |events| ==> events[i].KeyDown?
  }

  /** Everything after the first key-up is ignored. */
  lemma {:induction false} PressedStopsAtKeyUp(pre: seq<KeyEvent>, up: string, post: seq<KeyEvent>)
    requires AllDown(pre)
    ensures Pressed(pre + [KeyUp(up)] + post) == Pressed(pre)
  {
    if |pre| > 0 {
      assert (pre + [KeyUp(up)] + post)[1..] == pre[1..] + [KeyUp(up)] + post;
      PressedStopsAtKeyUp(pre[1..], up, post);
    } else {
      assert (pre + [KeyUp(up)] + post)[0] == KeyUp(up);
    }
  }

  /** The tokens come only from key-downs before the first key-up. */
  lemma HotkeyIgnoresLaterEvents(pre: seq<KeyEvent>, up: string, post: seq<KeyEvent>)
    requires AllDown(pre)
    ensures HotkeyTokens(pre + [KeyUp(up)] + post) == HotkeyTokens(pre)
  {
    PressedStopsAtKeyUp(pre, up, post);
  }

  /** Sequence without repeated elements. */
  predicate Distinct(xs: seq<string>) {
    forall i, j :: 0 <= i < j < |xs| ==> xs[i] != xs[j]
  }

  /** `get_hotkey()`: record the pressed keys, deduplicate them through a set, and join them
      with "+". The set's iteration order is unspecified, so `order` reports the one taken:
      every token exactly once, nothing else. */
  method GetHotkey(events: seq<KeyEvent>) returns (hotkey: string, order: seq<string>)
    ensures Distinct(order)
    ensures forall k :: k in order <==> k in HotkeyTokens(events)
    ensures hotkey == JoinOn(order, '+')
    ensures |events| > 0 && events[0].KeyUp? ==> hotkey == ""
  {
    var keys := RecordKeys(events);
    order := Deduplicate(keys);
    assert |order| == 0 || order[0] in keys;
    hotkey := JoinOn(order, '+');
  }

  /** The reading loop of `get_hotkey()`: normalised names of key-downs until the first
      key-up. */
  method RecordKeys(events: seq<KeyEvent>) returns (keys: seq<string>)
    ensures keys == Pressed(events)
  {
    keys := [];
    var i := 0;
    while i < |events| && events[i].KeyDown?
      invariant 0 <= i <= |events|
      invariant keys + Pressed(events[i..]) == Pressed(events)
    {
      assert events[i..][1..] == events[i + 1..];
      keys := keys + [NormaliseKey(events[i].name)];
      i := i + 1;
    }
  }

  /** The set round trip of `get_hotkey()`: each recorded name once, in some order. */
  method Deduplicate(keys: seq<string>) returns (order: seq<string>)
    ensures Distinct(order)
    ensures forall k :: k in order <==> k in keys
  {
    var remaining := set k | k in keys;
    order := [];
    while remaining != {}
      invariant Distinct(order)
      invariant forall k :: k in order ==> k !in remaining
      invariant forall k :: k in keys <==> k in order || k in remaining
      decreases remaining
    {
      var k :| k in remaining;
      order := order + [k];
      remaining := remaining - {k};
    }
  }

  /** When the first event is a key-up, nothing is recorded and the hotkey is empty. */
  lemma FirstKeyUpGivesEmpty(events: seq<KeyEvent>)
    requires |events| > 0 && events[0].KeyUp?
    ensures HotkeyTokens(events) == {}
  {
  }
}

=== FILE: wrappers.dfy ===
/** Optional values and success/failure results shared by every module of the model. */
module Wrappers {

  /** A value that may be absent: Python's `None` versus a present value. */
  datatype Option<+T> = None | Some(value: T) {

    /** The present value, or `default` when absent. */
    function GetOr(default: T): T {
      match this
      case Some(v) => v
      case None => default
    }
  }

  /** The outcome of an operation that can raise: a value, or the error it raised. */
  datatype Result<+T, +E> = Success(value: T) | Failure(error: E) {

    predicate IsFailure() {
      Failure?
    }

    function PropagateFailure<U>(): Result<U, E>
      requires Failure?
    {
      Failure(error)
    }

    function Extract(): T
      requires Success?
    {
      value
    }
  }
}
